=== FILE: README.md ===
# replybot core, modelled in Dafny

This project models the decision logic of replybot, a Discord bot. It covers five pieces.

- **Link detection.** The bot looks for Twitter and Bluesky post links with two .NET regular expressions, run case-insensitively. It uses `IsMatch` to ask whether a text holds a link and `Matches` to list the links.
- **Fixing tweets.** Every `twitter.com` in a tweet link is rewritten to `fxtwitter.com`. The bot then decides which message to answer, and with what text.
- **Quoting Bluesky posts.** Each post link is cut into a handle and a record key by ordinal replaces and a split, which reads these parts correctly only when the scheme (`https://` or `http://`), the host `bsky.app` and `/profile/` are all written in lower case. The post is read through the Bluesky API, along with the post it quotes and its images. Each post becomes a reply with numbered image attachments.
- **Reactions.** When a fix emote is added to a message, the reaction handler runs a chain of gates and then decides what to post.
- **Text building.** This covers the log-channel embed (description assembly and truncation) and the `/view-settings` text.

Modules:

- `Wrappers`: the `Option` type. A .NET `null` is `None`.
- `Strings`: .NET string operations the code relies on. These are ordinal and case-insensitive `Replace`, `Split` (empty parts are kept and the result is never empty), `string.Join`, and `int.ToString`.
- `Chat`, `GuildConfig`: emotes with the SDK's equality, and the per-server settings record.
- `UrlPatterns`: a matcher for the shape `https?:\/\/(www.)?(HOST|HOST…)LEAD[FIRST]+MIDDLE[LAST]+`. It is proved sound, complete and longest-match against a relational reading of the regex. It also defines the left-to-right, non-overlapping scan of `Regex.Matches`.
- `FixTwitter`, `FixBluesky`, `LogMessageBuilder`, `ReactionAdded`, `ViewSettings`: one module per source class.

Remote calls are oracle functions passed in as parameters:

- `GetRecord`, `GetImage` and `GetMessageAsync`;
- the Twitter and Instagram commands as the reaction handler sees them;
- the current date.

Bluesky resolution also returns the trace of API calls it makes.

Where the code and its description differ, the model follows the code:

- **The reaction count gate.** The handler reads the reaction count from a `ReactionMetadata` struct returned by `FirstOrDefault` (`Replybot/NotificationHandlers/ReactionAddedNotificationHandler.cs:57-77`). The `fixReaction == null` test therefore never fires. A message with no entry for the emote counts 0 and passes the gate (`ReactionAdded.MissingEntryPasses`).
- **`GetRkeyFromUri`.** It is never null, because .NET `Split` always returns at least one part (`FixBluesky.RkeyFromUri`).
- **A `www.` link.** The `www.` is not stripped, so the handle read from such a link is `www.HANDLE` (`FixBluesky.WwwStaysInRepo`). The `.` of the regex's `(www.)?` is a wildcard, so any four-character prefix of that shape, such as `wwwX`, is found too and likewise stays in front of the handle. The lemma covers only the prefix `www.`.
- **A host not written `bsky.app`.** The link regex ignores case and its `.` is a wildcard, so it also finds `https://BSKY.APP/profile/HANDLE/post/RKEY` or `https://bskyXapp/…`. The ordinal strip then leaves the host and `/profile` in place. The host is read as the handle and `profile` is the second part, so the handle is read as the record key (`FixBluesky.SpelledHostStaysInRepo`, `FixBluesky.UpperHostStaysInRepo`).
- **`/profile/` or the scheme not in lower case.** The same holds when only `/profile/` is spelled otherwise: `https://bsky.app/PROFILE/HANDLE/post/RKEY` is found, `bsky.app/PROFILE/` is not stripped, and the post is read as `bsky.app` with key `HANDLE` (`FixBluesky.UpperLeadStaysInRepo`). An upper-case scheme is not stripped either: `HTTPS://bsky.app/profile/HANDLE/post/RKEY` loses only `bsky.app/profile/`, so its parts are `HTTPS:`, an empty part and `HANDLE`, and the post is read as `HTTPS:` with key `HANDLE` (`FixBluesky.UpperSchemeStaysInRepo`).

## Model

| member | source | states |
|---|---|---|
| `Strings.Split` | Replybot/ReactionCommands/FixBlueskyCommand.cs:105 | `Split` never returns an empty list, no part holds the separator, and joining the parts back with it gives the input |
| `Strings.SplitJoin` | Replybot/TextCommands/FixTwitterCommand.cs:45 | splitting text joined with a separator gives back the parts, when none holds the separator |
| `Strings.ReplaceKeepsOut` | Replybot/TextCommands/FixTwitterCommand.cs:56 | replacing cannot bring in a character found in neither the text nor the replacement |
| `Strings.NatToStringInjective` | Replybot/ReactionCommands/FixBlueskyCommand.cs:87 | different numbers print differently, so indexed file names differ |
| `UrlPatterns.TwitterWellFormed` | Replybot/TextCommands/FixTwitterCommand.cs:7 | the tweet-link regex has the structure the matcher's proofs need: no host starts like `www.`, `twitter.com` and `t.co` never match at the same place, and the user-name class cannot swallow the `/` of `/status/` |
| `UrlPatterns.BlueskyWellFormed` | Replybot/ReactionCommands/FixBlueskyCommand.cs:14 | the Bluesky-link regex has that structure too |
| `UrlPatterns.MatchAtSound` | Replybot/TextCommands/FixTwitterCommand.cs:7 | every match the matcher reports is a text the regex describes |
| `UrlPatterns.MatchAtComplete` | Replybot/ReactionCommands/FixBlueskyCommand.cs:14 | whenever the regex describes a text starting at a position, the matcher finds a match there with the same choices, ending no earlier (greedy runs) |
| `UrlPatterns.DerivationUnique` | Replybot/TextCommands/FixTwitterCommand.cs:7 | a well-formed pattern reads a text through one set of choices only (scheme, `www.`, host, end of the first run) |
| `UrlPatterns.ScanSpansAreMatches` | Replybot/ReactionCommands/FixBlueskyCommand.cs:193 | every span of the `Matches` scan is the match starting there, spans come in order and never overlap |
| `UrlPatterns.Scan` | Replybot/ReactionCommands/FixBlueskyCommand.cs:193 | the scan is leftmost: no match starts between one span and the next, nor after the last |
| `UrlPatterns.Matches` | Replybot/TextCommands/FixTwitterCommand.cs:59-63 | the matched texts are the text's slices at the scanned spans, in order |
| `UrlPatterns.IsMatchIffMatches` | Replybot/ReactionCommands/FixBlueskyCommand.cs:93 | `IsMatch` holds exactly when `Matches` finds at least one link |
| `UrlPatterns.MatchesAreSingleLine` | Replybot/TextCommands/FixTwitterCommand.cs:61-62 | no matched link spans a line feed (`.` does not match `\n`) |
| `UrlPatterns.WholeTextMatch` | Replybot/TextCommands/FixTwitterCommand.cs:61-62 | a text the regex reads from end to end is its own one and only match |
| `UrlPatterns.SpelledDerives` | Replybot/ReactionCommands/FixBlueskyCommand.cs:14 | a link whose scheme, host and lead are any spellings the regex accepts (ignoring case, with `.` as the wildcard) is read by the regex from end to end |
| `FixTwitter.FixTwitterUrls` | Replybot/TextCommands/FixTwitterCommand.cs:53-57 | one fixed link per matched link, in order; what fixing does to each link is stated by `FixTwitter.FixTwitterUrlsRewriteHosts` |
| `FixTwitter.TweetDescription` | Replybot/TextCommands/FixTwitterCommand.cs:43 | "this tweet" exactly for one link, "these tweets" otherwise, zero included |
| `FixTwitter.FixedMessageLines` | Replybot/TextCommands/FixTwitterCommand.cs:40-46 | read line by line, the answer is the header naming the author, followed by exactly the fixed links |
| `FixTwitter.GetFixedTwitterMessage` | Replybot/TextCommands/FixTwitterCommand.cs:10-38 | the answer replies either to the command message or to the referenced message it read |
| `FixTwitter.NoReferenceAnswer` | Replybot/TextCommands/FixTwitterCommand.cs:14-19 | without a reference, the fixed message or the no-link apology, both replying to the command |
| `FixTwitter.DefaultReferenceAnswer` | Replybot/TextCommands/FixTwitterCommand.cs:21-25 | a reference with an unset id gives the command's own fixed links, one per line, with no header; the text is empty exactly when there are none |
| `FixTwitter.UnreadableReferenceAnswer` | Replybot/TextCommands/FixTwitterCommand.cs:27-31 | a referenced message that cannot be read gets the "couldn't read" apology, replying to the command |
| `FixTwitter.ReferencedAnswer` | Replybot/TextCommands/FixTwitterCommand.cs:33-37 | a readable referenced message is fixed and answered in reply to it, or the apology replies to the command |
| `FixTwitter.CanonicalUrlMatches` | Replybot/TextCommands/FixTwitterCommand.cs:59-63 | a message that is just `https://twitter.com/USER/status/ID` yields exactly that link |
| `FixTwitter.CanonicalUrlFixed` | Replybot/TextCommands/FixTwitterCommand.cs:56 | fixing such a link rewrites the host to `fxtwitter.com` and nothing else |
| `FixTwitter.ShortUrlUnchanged` | Replybot/TextCommands/FixTwitterCommand.cs:56 | a `t.co` link has nothing to rewrite and is left as it is |
| `FixTwitter.GetTwitterUrlsFromMessage` | Replybot/TextCommands/FixTwitterCommand.cs:59-63 | the values of `Matches` with the tweet-link regex; single-line links, and a canonical link is its own only match (`FixTwitter.CanonicalUrlMatches`) |
| `FixTwitter.DoesMessageContainTwitterUrl` | Replybot/TextCommands/FixTwitterCommand.cs:48-51 | `IsMatch` with the tweet-link regex, which holds exactly when the link list is non-empty (`UrlPatterns.IsMatchIffMatches`) |
| `FixTwitter.FixUrl` | Replybot/TextCommands/FixTwitterCommand.cs:56 | the case-insensitive replace of `twitter.com` by `fxtwitter.com`; its effect on every tweet link is stated by `FixTwitter.FixDerivedTweet` |
| `FixTwitter.BuildFixedTweetsMessage` | Replybot/TextCommands/FixTwitterCommand.cs:40-46 | the header line then the fixed links joined by line feeds; read back line by line in `FixTwitter.FixedMessageLines` |
| `FixTwitter.FixDerivedTweet` | Replybot/TextCommands/FixTwitterCommand.cs:56 | for every tweet link the regex reads (any scheme, with or without `www.`, any case): a `twitter.com` host with a real dot becomes `fxtwitter.com` and nothing else changes; a `t.co` host, or a host whose wildcard dot is another character, leaves the link unchanged |
| `FixTwitter.FixTwitterUrlsRewriteHosts` | Replybot/TextCommands/FixTwitterCommand.cs:53-57 | each fixed link is its match with the host rewritten exactly when that host is `twitter.com` in any case, and the match itself otherwise |
| `FixBluesky.CanHandleHasLinks` | Replybot/ReactionCommands/FixBlueskyCommand.cs:18-21 | the command handles a message exactly when the fix is on and at least one Bluesky link is found |
| `FixBluesky.IsReactingByIdOnly` | Replybot/ReactionCommands/FixBlueskyCommand.cs:32-35 | the fix emote is recognised by its id alone, only when the fix is on; an emoji never counts |
| `FixBluesky.DecomposeUrl` | Replybot/ReactionCommands/FixBlueskyCommand.cs:102-112 | a link is skipped exactly when the stripped link has fewer than three `/` parts; otherwise the handle is the first part and the record key the third |
| `FixBluesky.FirstContaining` | Replybot/ReactionCommands/FixBlueskyCommand.cs:188 | the first part containing the text, and none exactly when no part contains it |
| `FixBluesky.RkeyFromUri` | Replybot/ReactionCommands/FixBlueskyCommand.cs:179-183 | the record key is always present: the last `/` part of the address |
| `FixBluesky.PostUrlMatches` | Replybot/ReactionCommands/FixBlueskyCommand.cs:191-195 | a message that is just `https://bsky.app/profile/HANDLE/post/RKEY` yields exactly that link |
| `FixBluesky.PostUrlDecomposes` | Replybot/ReactionCommands/FixBlueskyCommand.cs:102-112 | that link decomposes into exactly its handle and record key |
| `FixBluesky.PostUrlFirstRead` | Replybot/ReactionCommands/FixBlueskyCommand.cs:114 | resolving that link first reads the record at that handle and key |
| `FixBluesky.WwwStaysInRepo` | Replybot/ReactionCommands/FixBlueskyCommand.cs:102-111 | in a `www.` link the `www.` is not removed, so the handle read is `www.HANDLE` |
| `FixBluesky.SpelledPostUrlMatches` | Replybot/ReactionCommands/FixBlueskyCommand.cs:14 | a post link is found as its own one match for every spelling of the scheme, the host and `/profile/` the case-insensitive pattern accepts, upper case and wildcard dot included |
| `FixBluesky.SpelledPostUrlStripped` | Replybot/ReactionCommands/FixBlueskyCommand.cs:102-104 | for a link whose host and lead are not written exactly `bsky.app` and `/profile/`, the ordinal strip removes the scheme and keeps `HOST` + lead + `HANDLE/post/RKEY` |
| `FixBluesky.SpelledHostStaysInRepo` | Replybot/ReactionCommands/FixBlueskyCommand.cs:102-112 | such a link decomposes into the host as the handle and the handle as the record key |
| `FixBluesky.UpperLeadStaysInRepo` | Replybot/ReactionCommands/FixBlueskyCommand.cs:14-112 | `https://bsky.app/PROFILE/HANDLE/post/RKEY` is found by the regex and read as the post `bsky.app` with key `HANDLE` |
| `FixBluesky.UpperSchemeStripped` | Replybot/ReactionCommands/FixBlueskyCommand.cs:102-104 | the ordinal strip leaves the scheme of `HTTPS://bsky.app/profile/HANDLE/post/RKEY` in place and removes only `bsky.app/profile/` |
| `FixBluesky.UpperSchemeDecomposes` | Replybot/ReactionCommands/FixBlueskyCommand.cs:102-112 | that link splits into `HTTPS:`, an empty part and `HANDLE`, so the post is read as `HTTPS:` with key `HANDLE` |
| `FixBluesky.UpperSchemeStaysInRepo` | Replybot/ReactionCommands/FixBlueskyCommand.cs:14-112 | `HTTPS://bsky.app/profile/HANDLE/post/RKEY` is found by the regex and read as the post `HTTPS:` with key `HANDLE` |
| `FixBluesky.UpperHostStaysInRepo` | Replybot/ReactionCommands/FixBlueskyCommand.cs:14-112 | `https://BSKY.APP/profile/HANDLE/post/RKEY` is found by the regex and read as the post `BSKY.APP` with key `HANDLE` |
| `FixBluesky.AtUriRoundTrip` | Replybot/ReactionCommands/FixBlueskyCommand.cs:179-189 | the DID and record key read back from `at://DID/COLLECTION/RKEY` are the ones it was made from |
| `FixBluesky.PostText` | Replybot/ReactionCommands/FixBlueskyCommand.cs:123-148 | without a quoted post the text is the post's own; with one it starts with the post's text and the quote header; at most one extra record read |
| `FixBluesky.QuotedTextTail` | Replybot/ReactionCommands/FixBlueskyCommand.cs:130-147 | the quoted part is the quoted record's text when its DID and key can be read and the record fetched, and `[content unavailable]` otherwise |
| `FixBluesky.FailedImageDropsOnlyItself` | Replybot/ReactionCommands/FixBlueskyCommand.cs:156-167 | an image that cannot be fetched is left out, and every other image is kept in order |
| `FixBluesky.AllImagesFetched` | Replybot/ReactionCommands/FixBlueskyCommand.cs:159-166 | when every image can be fetched, the result is each image's fetched bytes with its alt text, one per image and in order |
| `FixBluesky.ResolveUrl` | Replybot/ReactionCommands/FixBlueskyCommand.cs:100-175 | a link gives no post exactly when it cannot be decomposed, its record cannot be read, or the record's address holds no DID; the title is `@` and the handle; the first API call reads the post |
| `FixBluesky.AtMostTwoRecordReads` | Replybot/ReactionCommands/FixBlueskyCommand.cs:114-134 | resolving one link reads at most two records, the post and the post it quotes |
| `FixBluesky.ResolvedImages` | Replybot/ReactionCommands/FixBlueskyCommand.cs:120-167 | the images sent are the fetchable ones among the media images, or else among the embed's images |
| `FixBluesky.ResolveAllAppend` | Replybot/ReactionCommands/FixBlueskyCommand.cs:95-177 | posts come out in link order: resolving two lists of links is resolving each, one after the other |
| `FixBluesky.BuildCommandResponse` | Replybot/ReactionCommands/FixBlueskyCommand.cs:63-81 | one attachment per image, named `bsky_DATE_INDEX.png` and described by its alt text; the reply does not ping and may be deleted |
| `FixBluesky.AttachmentNamesUnique` | Replybot/ReactionCommands/FixBlueskyCommand.cs:83-91 | no two attachments of one response share a file name |
| `FixBluesky.ResponseDescriptionParts` | Replybot/ReactionCommands/FixBlueskyCommand.cs:72-73 | the response text is the mention, the request line, then the post's title and text |
| `FixBluesky.HandleMessage` | Replybot/ReactionCommands/FixBlueskyCommand.cs:37-61 | a message without a link gets exactly the no-link reply; otherwise one response per resolved post, in order, and none when nothing resolves |
| `FixBluesky.CanHandle` | Replybot/ReactionCommands/FixBlueskyCommand.cs:18-21 | the Bluesky switch and `IsMatch`; equivalent to the switch and a non-empty link list (`FixBluesky.CanHandleHasLinks`) |
| `FixBluesky.IsReacting` | Replybot/ReactionCommands/FixBlueskyCommand.cs:32-35 | the Bluesky switch and the SDK's emote equality; by id alone (`FixBluesky.IsReactingByIdOnly`) |
| `FixBluesky.BuildFileAttachment` | Replybot/ReactionCommands/FixBlueskyCommand.cs:83-91 | the image's bytes under `bsky_DATE_INDEX.png` with its alt text as the description; names are unique per index (`FixBluesky.AttachmentNamesUnique`) |
| `FixBluesky.StripUrl` | Replybot/ReactionCommands/FixBlueskyCommand.cs:102-104 | the three ordinal replaces in order; for a post link whose scheme, host `bsky.app` and `/profile/` are all in lower case it leaves `HANDLE/post/RKEY` (`FixBluesky.PostUrlDecomposes`); for a host or `/profile/` spelled otherwise it removes only the scheme (`FixBluesky.SpelledPostUrlStripped`), and for an upper-case scheme only `bsky.app/profile/` (`FixBluesky.UpperSchemeStripped`) |
| `FixBluesky.DidFromUri` | Replybot/ReactionCommands/FixBlueskyCommand.cs:185-189 | the first `/`-part of the address without `at://` that contains `did:plc`, or none (`FixBluesky.FirstContaining`, `FixBluesky.AtUriRoundTrip`) |
| `FixBluesky.ResolveAll` | Replybot/ReactionCommands/FixBlueskyCommand.cs:100-176 | at most one post per link; posts come out in link order (`FixBluesky.ResolveAllAppend`) and each is what `FixBluesky.ResolveUrl` gives for its link |
| `FixBluesky.GetBlueskyEmbeds` | Replybot/ReactionCommands/FixBlueskyCommand.cs:95-100 | the links of the message's text, resolved in order |
| `LogMessageBuilder.Truncate` | Replybot/LogMessageBuilder.cs:78-86 | a text that fits is kept; a longer one becomes exactly `maxCharacters` long, its head kept and `[...]` at the end |
| `LogMessageBuilder.TruncateIdempotent` | Replybot/LogMessageBuilder.cs:78-86 | truncating again changes nothing |
| `LogMessageBuilder.DescriptionEmptyIff` | Replybot/LogMessageBuilder.cs:47-49 | the description is empty exactly when the explanation, the text and the embed description all are |
| `LogMessageBuilder.DescriptionParts` | Replybot/LogMessageBuilder.cs:47-49 | the bold explanation comes first; the text follows on a new line, right after the explanation when there is one; the embed description ends the text behind the `\n-----------\n` rule; the length is the sum of the parts present |
| `LogMessageBuilder.AttachmentLinksAppend` | Replybot/LogMessageBuilder.cs:40-45 | no attachments give the empty text, one gives `[Attachment 1](URL)` alone, and each further attachment adds `, [Attachment N](URL)` with the next number |
| `LogMessageBuilder.CreateEmbedBuilder` | Replybot/LogMessageBuilder.cs:15-59 | the title as given, the first embed's image, a description within the limit or untouched, and, exactly when there are attachments, one non-inline field named `Attachments` holding the numbered attachment links |
| `LogMessageBuilder.DescriptionIsTruncated` | Replybot/LogMessageBuilder.cs:53-58 | the in-place cut of the description is the same rule as `TruncateIfLongerThanMaxCharacters` |
| `LogMessageBuilder.OnlyFirstEmbedCounts` | Replybot/LogMessageBuilder.cs:29-38 | embeds after the first change nothing |
| `LogMessageBuilder.CreateEmbedBuilderWithFields` | Replybot/LogMessageBuilder.cs:61-76 | one non-inline field per entry, in order, named by the key; a value that fits is kept, and a longer one becomes exactly `maxCharacters` long, keeping its head and ending in `[...]` |
| `LogMessageBuilder.FieldValuesAreTruncated` | Replybot/LogMessageBuilder.cs:67-72 | each field value is cut by the same rule as `TruncateIfLongerThanMaxCharacters` |
| `LogMessageBuilder.AssembleDescription` | Replybot/LogMessageBuilder.cs:47-49 | the three optional parts in order; empty exactly when all are (`LogMessageBuilder.DescriptionEmptyIff`), each part readable where it lands (`LogMessageBuilder.DescriptionParts`) |
| `LogMessageBuilder.AttachmentLinks` | Replybot/LogMessageBuilder.cs:43-44 | numbered links from 1 joined with `", "`; one more attachment adds one link after a comma (`LogMessageBuilder.AttachmentLinksAppend`) |
| `ReactionAdded.ReactionCount` | Replybot/NotificationHandlers/ReactionAddedNotificationHandler.cs:57-72 | the count of an emote in the reaction table is 0 when no entry matches, and a non-zero count is that of a matching entry |
| `ReactionAdded.ReactionCountFirst` | Replybot/NotificationHandlers/ReactionAddedNotificationHandler.cs:61-71 | the count is that of the first matching entry |
| `ReactionAdded.BotStopsFirst` | Replybot/NotificationHandlers/ReactionAddedNotificationHandler.cs:38-41 | the handler stops at the bot gate exactly when a server member who is a bot reacted |
| `ReactionAdded.UnrecognisedOrMissingStops` | Replybot/NotificationHandlers/ReactionAddedNotificationHandler.cs:43-55 | a reaction that is no fix emote, or on a message that cannot be read, posts nothing |
| `ReactionAdded.PostedPassedEveryGate` | Replybot/NotificationHandlers/ReactionAddedNotificationHandler.cs:38-133 | anything posted passed every gate: not a bot, a fix emote, a readable message, at most two reactions, a server channel, the fix not turned off, a keyword found |
| `ReactionAdded.CountGate` | Replybot/NotificationHandlers/ReactionAddedNotificationHandler.cs:79-82 | after the first gates, the handler stops at the count gate exactly when more than two have reacted with the emote |
| `ReactionAdded.MissingEntryPasses` | Replybot/NotificationHandlers/ReactionAddedNotificationHandler.cs:57-82 | a message with no entry for the emote counts 0 and passes the count gate |
| `ReactionAdded.UnreadSettingsDoNotStop` | Replybot/NotificationHandlers/ReactionAddedNotificationHandler.cs:88-94 | settings that cannot be read never stop an event |
| `ReactionAdded.TurnedOffStops` | Replybot/NotificationHandlers/ReactionAddedNotificationHandler.cs:89-94 | a Bluesky reaction in a server with the Bluesky fix turned off stops at the settings gate |
| `ReactionAdded.EarlyGatesIgnoreSettings` | Replybot/NotificationHandlers/ReactionAddedNotificationHandler.cs:38-86 | the gates before the settings are read do not depend on the settings |
| `ReactionAdded.TwitterKeyword` | Replybot/NotificationHandlers/ReactionAddedNotificationHandler.cs:98-108 | for a Twitter reaction, an original link asks to fix, a fixed link alone asks to break, and neither gives no keyword |
| `ReactionAdded.InstagramKeyword` | Replybot/NotificationHandlers/ReactionAddedNotificationHandler.cs:110-120 | the same for Instagram and its fixed links |
| `ReactionAdded.BlueskyKeyword` | Replybot/NotificationHandlers/ReactionAddedNotificationHandler.cs:122-128 | a Bluesky reaction only ever asks to fix, and only when there is a Bluesky link |
| `ReactionAdded.NoApologyPosted` | Replybot/NotificationHandlers/ReactionAddedNotificationHandler.cs:137-154 | a command's no-link apology is never posted from a reaction |
| `ReactionAdded.TwitterPostsOneReply` | Replybot/NotificationHandlers/ReactionAddedNotificationHandler.cs:195-200 | a Twitter reaction that gets through posts exactly one reply, with the fixed text |
| `ReactionAdded.BlueskyPostsPerEmbed` | Replybot/NotificationHandlers/ReactionAddedNotificationHandler.cs:155-193 | a Bluesky reaction with no embeds posts nothing; otherwise one post per embed, in order |
| `ReactionAdded.BlueskyActionShape` | Replybot/NotificationHandlers/ReactionAddedNotificationHandler.cs:164-189 | an embed with an image is sent as the file `bsky_DATE.png`, shown by a copy of the embed (title, text, footer); one without is sent unchanged |
| `ReactionAdded.Decide` | Replybot/NotificationHandlers/ReactionAddedNotificationHandler.cs:30-203 | the handler: the first gate that fails, in source order, or the posts; stated gate by gate in `ReactionAdded.PostedPassedEveryGate` and the lemmas above |
| `ReactionAdded.TalliedEmote` | Replybot/NotificationHandlers/ReactionAddedNotificationHandler.cs:57-72 | the emote whose count is read: the last of the three assignments that runs, so Bluesky over Instagram over Twitter (`ReactionAdded.CountGate`) |
| `ReactionAdded.IsTurnedOff` | Replybot/NotificationHandlers/ReactionAddedNotificationHandler.cs:89-94 | a platform's switch read as off stops the event; unread settings stop nothing (`ReactionAdded.TurnedOffStops`, `ReactionAdded.UnreadSettingsDoNotStop`) |
| `ReactionAdded.Keyword` | Replybot/NotificationHandlers/ReactionAddedNotificationHandler.cs:96-128 | the keyword each platform's test sets, later platforms overwriting earlier ones (`ReactionAdded.TwitterKeyword`, `ReactionAdded.InstagramKeyword`, `ReactionAdded.BlueskyKeyword`) |
| `ReactionAdded.Post` | Replybot/NotificationHandlers/ReactionAddedNotificationHandler.cs:135-201 | one reply for Twitter or Instagram unless there is no text or it is the apology, and one post per Bluesky embed (`ReactionAdded.TwitterPostsOneReply`, `ReactionAdded.BlueskyPostsPerEmbed`) |
| `ViewSettings.EnabledText` | Replybot/SlashCommands/ViewSettingsSlashCommand.cs:63-66 | `ON` exactly when enabled, `OFF` exactly when not |
| `ViewSettings.AdminUserDisplayTextSteps` | Replybot/SlashCommands/ViewSettingsSlashCommand.cs:58-61 | no managers give the empty text, one gives `<@id>`, and each further manager adds `, <@id>` |
| `ViewSettings.SettingsBodyLines` | Replybot/SlashCommands/ViewSettingsSlashCommand.cs:39-47 | the settings text is exactly its eight lines, in order, each ended by a line feed |
| `ViewSettings.SettingsLinesDetermineSettings` | Replybot/SlashCommands/ViewSettingsSlashCommand.cs:40-46 | the text determines every switch and the log channel (`<#id>` or `Not Set`) |
| `ViewSettings.ViewSettingsResponse` | Replybot/SlashCommands/ViewSettingsSlashCommand.cs:19-56 | a missing member gets the "something is wrong" reply and a non-administrator the refusal. An administrator gets the error embed exactly when the settings cannot be read, and otherwise the settings titled with the server's name |
| `ViewSettings.SettingsOnlyForAdministrators` | Replybot/SlashCommands/ViewSettingsSlashCommand.cs:27-31 | the answer to anyone but an administrator does not depend on the settings |
| `ViewSettings.AdminUserDisplayText` | Replybot/SlashCommands/ViewSettingsSlashCommand.cs:58-61 | the manager mentions joined by `", "`, built one mention at a time in `ViewSettings.AdminUserDisplayTextSteps` |
| `ViewSettings.SettingsBody` | Replybot/SlashCommands/ViewSettingsSlashCommand.cs:39-47 | the eight setting lines each ended by a line feed; split back into them by `ViewSettings.SettingsBodyLines` |

## Left out

- The `Task.Run` fire-and-forget, async/await and cancellation in the reaction handler: one sequential decision per event is modelled.
- Discord SDK plumbing is left out: downloading messages, `ReplyAsync`, `SendFileAsync`, `EmbedBuilder`, `Emote.Parse`, file streams. Posts are plain `Action` values, and images are opaque bytes.
- Emote equality follows the SDK's `Equals`: custom emotes compare by id, emoji by text. The SDK is not part of this model.
- HTTP and JSON behind `BlueskyApi.GetRecord` and `GetImage`, and `GetMessageAsync`: these are oracle functions that return `Option`.
- Regex engine internals and match timeouts: nothing shown catches a timeout, so no claim is made about one.
- Strings.Lower: case folding covers ASCII letters only. .NET's `RegexOptions.IgnoreCase` and `InvariantCultureIgnoreCase` also pair some non-ASCII characters with ASCII letters, such as U+212A KELVIN SIGN with `k`. Message text is user input and may hold such characters, so a few links that the source matches, or a `twitter.com` that it replaces, are not matched or replaced in the model. `UrlPatterns.MatchAtSound`, `UrlPatterns.MatchAtComplete`, `FixTwitter.FixDerivedTweet` and the lemmas built on them are about the ASCII reading.
- `DateTime.Now.ToShortDateString()`: the date text is a parameter.
- The Twitter and Instagram commands as the reaction handler calls them are parameters (`ReactionAdded.Commands`). The `GetFixedTwitterMessage(message, keyword)` overload, `DoesMessageContainFxTwitterUrl` and the Instagram command are not part of this model. The shown `FixTwitterCommand` has a different `GetFixedTwitterMessage` and is modelled on its own.
- `FixBlueskyCommand.HandleReaction` only wraps the emote in a list and is not modelled separately. The emote is `FixBluesky.FixBlueskyEmote`.
- `ToggleFixBlueskyReactionsSlashCommand` and the settings persistence interface are not part of this model. The toggle calls `SetEnableAutoFixInstagram` at line 29 for the Bluesky switch, and settings updates are not modelled.
- `EmbedBuilder` length limits, which throw past 4096 characters for a description and 1024 for a field value: the builder is plain data.
- LogMessageBuilder.Truncate: requires `maxCharacters` to leave room for `[...]` when cutting. The source throws there (a negative range), and the exception path is not modelled.
- Null message content is left out: the model's content is always a string. In the source `Regex.IsMatch` and `Matches` throw on a null text (`Replybot/TextCommands/FixTwitterCommand.cs:50`, `Replybot/ReactionCommands/FixBlueskyCommand.cs:93`), and only `LogMessageBuilder` reads a null content as empty through `string.IsNullOrEmpty`.
- UrlPatterns.AtomMatches: a character of the model is a Unicode scalar value, while a .NET `string` is a sequence of UTF-16 code units. The regex `.` matches one code unit, so a character beyond U+FFFF (an emoji, say) is two units to the source and one to the model. The matcher's results are those of the source only for text without such characters.
- LogMessageBuilder.Truncate: lengths and cut positions count scalar values, where the source counts UTF-16 code units. The result agrees with the source only for text without characters beyond U+FFFF; with such characters the source's cut can fall at another place, or inside a surrogate pair.
- LogMessageBuilder.CreateEmbedBuilder: the description limit is compared with a length in scalar values, not in UTF-16 code units, so the "within the limit or untouched" promise holds as the source's only for text without characters beyond U+FFFF.
- LogMessageBuilder.CreateEmbedBuilderWithFields: the `Dictionary<string, string>` of fields (`Replybot/LogMessageBuilder.cs:61-76`) is an ordered list of pairs. The model allows duplicate keys, which a dictionary cannot hold, and the fields come in list order, which assumes the dictionary's enumeration order.
- The user the `/view-settings` embeds are built for, and the looks of the error and regular embeds, come from an external formatter that is not part of this model. Only title and text are kept.

=== FILE: chat.dfy ===
/** The few chat-platform values the bot's logic looks at, as plain data. */
module Chat {

  /** A file's contents; the bot never looks inside. */
  type Bytes = seq<bv8>

  /** A reaction emote: a server's custom emote (`<:name:id>`) or a Unicode emoji. */
  datatype Emote = CustomEmote(name: string, id: string) | UnicodeEmoji(text: string)

  /** The SDK's `Equals` on emotes: custom emotes are the same when their ids are, emoji when their text is. */
  predicate SameEmote(a: Emote, b: Emote) {
    match (a, b)
    case (CustomEmote(_, x), CustomEmote(_, y)) => x == y
    case (UnicodeEmoji(x), UnicodeEmoji(y)) => x == y
    case _ => false
  }
}

/** The per-server settings record the bot reads; storing and updating it is not modelled. */
module GuildConfig {
  import Wrappers

  datatype GuildConfiguration = GuildConfiguration(
    enableDefaultReplies: bool,
    enableAvatarAnnouncements: bool,
    enableAvatarMentions: bool,
    logChannelId: Wrappers.Option<string>,
    enableFixTweetReactions: bool,
    enableFixInstagramReactions: bool,
    enableFixBlueskyReactions: bool,
    adminUserIds: seq<string>)
}

=== FILE: fix_bluesky.dfy ===
/**
  The `fixbluesky` reaction command: every Bluesky post link of a message is looked up through the Bluesky
  API, and each post that can be read comes back as one response holding its text, the text of a post it
  quotes, and its images as numbered file attachments.

  The two API calls, `GetRecord(repo, rkey)` and `GetImage(did, link)`, are oracle functions returning
  `Option`, and the model records the calls it makes so that their number and order can be stated.
 */
module FixBluesky {
  import opened Wrappers
  import opened Strings
  import opened Chat
  import opened GuildConfig
  import opened UrlPatterns

  const NoLinkMessage := "I don't think there's a Bluesky link there."
  const ContentUnavailableText := "[content unavailable]"
  const QuotedPostHeader := "\n**Quoted Post:**\n"
  const RequestedText := " Here's the Bluesky post content you requested:\n>>> ### "

  /** The reaction that asks for a fix: the server emote `<:fixbluesky:1126862392941367376>`. */
  const FixBlueskyEmote := CustomEmote("fixbluesky", "1126862392941367376")

  /** An image of a post: the link of its blob and its alt text. */
  datatype ImageRef = ImageRef(link: string, alt: string)

  /** A media embed, which may carry images. */
  datatype Media = Media(images: Option<seq<ImageRef>>)

  /** The `at://` address of a post quoted by another. */
  datatype QuotedRecord = QuotedRecord(uri: string)

  datatype PostEmbed = PostEmbed(images: Option<seq<ImageRef>>, media: Option<Media>, record: Option<QuotedRecord>)

  datatype PostValue = PostValue(text: string, embed: Option<PostEmbed>)

  /** A post record as `GetRecord` returns it: its own `at://` address and its contents. */
  datatype Record = Record(uri: string, value: PostValue)

  /** The Bluesky API as the command sees it. */
  datatype Api = Api(getRecord: (string, string) -> Option<Record>, getImage: (string, string) -> Option<Bytes>)

  /** One call made to the API. */
  datatype ApiCall = GetRecordCall(repo: string, rkey: string) | GetImageCall(did: string, link: string)

  datatype ImageWithMetadata = ImageWithMetadata(image: Bytes, altText: string)

  /** A post that was read: `@handle`, its text (with any quoted post) and the images that could be fetched. */
  datatype BlueskyMessage = BlueskyMessage(title: string, description: string, images: seq<ImageWithMetadata>)

  datatype FileAttachment = FileAttachment(data: Bytes, fileName: string, description: string)

  /** A reply of a command; a flag that is `None` is left at its default. */
  datatype CommandResponse = CommandResponse(
    description: Option<string>,
    fileAttachments: seq<FileAttachment>,
    notifyWhenReplying: Option<bool>,
    allowDeleteButton: Option<bool>)

  /** Where a post lives: the handle or DID of its author and its record key. */
  datatype PostAddress = PostAddress(repo: string, rkey: string)

  /** What resolving one link gives: the post, if it could be read, and the calls that were made. */
  datatype Resolution = Resolution(message: Option<BlueskyMessage>, calls: seq<ApiCall>)

  predicate DoesMessageContainBlueskyUrl(content: string) {
    IsMatch(Bluesky, content)
  }

  function GetBlueskyUrlsFromMessage(content: string): seq<string> {
    Matches(Bluesky, content)
  }

  /** `CanHandle`: the server has the fix turned on and the message holds a Bluesky link. */
  predicate CanHandle(content: string, config: GuildConfiguration) {
    config.enableFixBlueskyReactions && DoesMessageContainBlueskyUrl(content)
  }

  /** A message the command can handle has at least one link to resolve. */
  lemma CanHandleHasLinks(content: string, config: GuildConfiguration)
    ensures CanHandle(content, config) <==> config.enableFixBlueskyReactions && |GetBlueskyUrlsFromMessage(content)| > 0
  {
    IsMatchIffMatches(Bluesky, content);
  }

  /** `IsReacting`: the server has the fix turned on and the reaction is the fix emote. */
  predicate IsReacting(emote: Emote, config: GuildConfiguration) {
    config.enableFixBlueskyReactions && SameEmote(emote, FixBlueskyEmote)
  }

  /** The emote is recognised by its id alone; an emoji never counts. */
  lemma IsReactingByIdOnly(name: string, id: string, text: string, config: GuildConfiguration)
    ensures IsReacting(CustomEmote(name, id), config) <==> config.enableFixBlueskyReactions && id == FixBlueskyEmote.id
    ensures !IsReacting(UnicodeEmoji(text), config)
  {
  }

  // ---------------------------------------------------------------------------------------------
  // Addresses

  /** The link with its scheme and `bsky.app/profile/` removed (ordinal, everywhere). */
  function StripUrl(url: string): string {
    ReplaceAll(ReplaceAll(ReplaceAll(url, "https://", "", false), "http://", "", false), "bsky.app/profile/", "", false)
  }

  /** The handle and record key of a link: the first and third `/`-segment of the stripped link. */
  function DecomposeUrl(url: string): (r: Option<PostAddress>)
    ensures r.None? <==> |Split(StripUrl(url), '/')| < 3
    ensures r.Some? ==> r.value.repo == Split(StripUrl(url), '/')[0] && r.value.rkey == Split(StripUrl(url), '/')[2]
    ensures r.Some? ==> '/' !in r.value.repo && '/' !in r.value.rkey
  {
    var parts := Split(StripUrl(url), '/');
    if |parts| < 3 then None else Some(PostAddress(parts[0], parts[2]))
  }

  /** The segments of an `at://` address. */
  function UriSegments(uri: string): seq<string> {
    Split(ReplaceAll(uri, "at://", "", false), '/')
  }

  /** The first of `parts` containing `pat`, if any. */
  function FirstContaining(parts: seq<string>, pat: string): (r: Option<string>)
    ensures r.None? <==> forall k :: 0 <= k < |parts| ==> !Contains(parts[k], pat)
    ensures r.Some? ==> exists k :: 0 <= k < |parts| && parts[k] == r.value && Contains(r.value, pat)
                              && (forall m :: 0 <= m < k ==> !Contains(parts[m], pat))
    decreases |parts|
  {
    if |parts| == 0 then None
    else if Contains(parts[0], pat) then Some(parts[0])
    else
      var r := FirstContaining(parts[1..], pat);
      assert forall k :: 0 < k < |parts| ==> parts[k] == parts[1..][k - 1];
      r
  }

  /** `GetUserDidFromUri`: the first segment of the address that contains `did:plc`. */
  function DidFromUri(uri: string): Option<string> {
    FirstContaining(UriSegments(uri), "did:plc")
  }

  /** `GetRkeyFromUri`: the last segment of the address. `Split` never returns an empty list, so this is never null. */
  function RkeyFromUri(uri: string): (r: Option<string>)
    ensures r.Some? && r.value == UriSegments(uri)[|UriSegments(uri)| - 1]
  {
    var parts := UriSegments(uri);
    if |parts| == 0 then None else Some(parts[|parts| - 1])
  }

  /** A handle and a record key as the link pattern accepts them. */
  predicate ValidPost(handle: string, rkey: string) {
    && |handle| > 0 && AllIn(handle, 0, |handle|, Bluesky.first)
    && |rkey| > 0 && AllIn(rkey, 0, |rkey|, Bluesky.last)
  }

  /** The canonical link `https://bsky.app/profile/HANDLE/post/RKEY`. */
  function PostUrl(handle: string, rkey: string): string {
    Canonical(Bluesky, 0, handle, rkey)
  }

  /** No character of a valid handle or record key is a slash or a colon. */
  lemma ValidPostCharacters(handle: string, rkey: string)
    requires ValidPost(handle, rkey)
    ensures '/' !in handle && ':' !in handle && '/' !in rkey && ':' !in rkey
  {
    forall k | 0 <= k < |handle|
      ensures handle[k] != '/' && handle[k] != ':'
    {
      assert InClass(Bluesky.first, handle[k]);
    }
    forall k | 0 <= k < |rkey|
      ensures rkey[k] != '/' && rkey[k] != ':'
    {
      assert InClass(Bluesky.last, rkey[k]);
    }
  }

  /** A message that is just the canonical link to a post holds exactly that one link. */
  lemma PostUrlMatches(handle: string, rkey: string)
    requires ValidPost(handle, rkey)
    ensures GetBlueskyUrlsFromMessage(PostUrl(handle, rkey)) == [PostUrl(handle, rkey)]
  {
    CanonicalDerives(Bluesky, 0, handle, rkey);
    BlueskyWellFormed();
    WholeTextMatch(Bluesky, PostUrl(handle, rkey), Parse(true, false, 0, 8 + 8 + 9 + |handle|));
  }

  /** The part of a post link after `bsky.app/profile/`. */
  lemma PostPathHasNoProfile(handle: string, rkey: string)
    requires '/' !in handle && '/' !in rkey
    ensures forall q: nat :: !OccursAt(Join3(handle, "post", rkey, '/'), "bsky.app/profile/", q, false)
  {
    var s := Join3(handle, "post", rkey, '/');
    var pat := "bsky.app/profile/";
    Join3Separators(handle, "post", rkey, '/');
    forall q: nat
      ensures !OccursAt(s, pat, q, false)
    {
      if q + |pat| <= |s| {
        if s[q + 8] != '/' {
          MismatchNoOccurrence(s, pat, q, 8, false);
        } else {
          MismatchNoOccurrence(s, pat, q, 16, false);
        }
      }
    }
  }

  /** The canonical link is the scheme, `bsky.app/profile/` and the path `HANDLE/post/RKEY`. */
  lemma PostUrlShape(handle: string, rkey: string)
    ensures PostUrl(handle, rkey) == "https://" + ("bsky.app/profile/" + Join3(handle, "post", rkey, '/'))
  {
    assert "/post/" + rkey == ['/'] + ("post" + (['/'] + rkey));
  }

  /** Both scheme removals leave a colon-free rest after `https://` as it is. */
  lemma SchemeRemoved(rest: string)
    requires ':' !in rest
    ensures ReplaceAll(ReplaceAll("https://" + rest, "https://", "", false), "http://", "", false) == rest
  {
    AbsentCharNoOccurrence(rest, "https://", ':', false);
    RemoveHead("https://", rest, false);
    AbsentCharNoOccurrence(rest, "http://", ':', false);
    ReplaceAbsent(rest, "http://", "", false);
  }

  /** Stripping the canonical link leaves `HANDLE/post/RKEY`. */
  lemma PostUrlStripped(handle: string, rkey: string)
    requires ValidPost(handle, rkey)
    ensures StripUrl(PostUrl(handle, rkey)) == Join3(handle, "post", rkey, '/')
  {
    ValidPostCharacters(handle, rkey);
    var path := Join3(handle, "post", rkey, '/');
    PostUrlShape(handle, rkey);
    SchemeRemoved("bsky.app/profile/" + path);
    PostPathHasNoProfile(handle, rkey);
    RemoveHead("bsky.app/profile/", path, false);
  }

  /** The canonical link decomposes into its handle and record key. */
  lemma PostUrlDecomposes(handle: string, rkey: string)
    requires ValidPost(handle, rkey)
    ensures DecomposeUrl(PostUrl(handle, rkey)) == Some(PostAddress(handle, rkey))
  {
    ValidPostCharacters(handle, rkey);
    PostUrlStripped(handle, rkey);
    SplitJoin3(handle, "post", rkey, '/');
  }

  /** Resolving the canonical link first reads the record at that handle and key. */
  lemma PostUrlFirstRead(api: Api, handle: string, rkey: string)
    requires ValidPost(handle, rkey)
    ensures var r := ResolveUrl(api, PostUrl(handle, rkey));
      && |r.calls| > 0 && r.calls[0] == GetRecordCall(handle, rkey)
      && (r.message.Some? ==> r.message.value.title == "@" + handle)
  {
    PostUrlDecomposes(handle, rkey);
  }

  /** `bsky.app/profile/` is not removed from behind a leading `www.`: it is removed from what follows. */
  lemma WwwKept(rest: string)
    ensures ReplaceAll("www." + rest, "bsky.app/profile/", "", false) == "www." + ReplaceAll(rest, "bsky.app/profile/", "", false)
  {
    forall q: nat | q < 4
      ensures !OccursAt("www." + rest, "bsky.app/profile/", q, false)
    {
      MismatchNoOccurrence("www." + rest, "bsky.app/profile/", q, 0, false);
    }
    ReplaceKeepsPrefix("www.", rest, "bsky.app/profile/", "", false);
  }

  /** The canonical link with `www.` in front of the host. */
  function WwwPostUrl(handle: string, rkey: string): string {
    "https://" + ("www." + ("bsky.app/profile/" + Join3(handle, "post", rkey, '/')))
  }

  /** The link with `www.` is the pattern's address with `www.` for a handle and a record key. */
  lemma WwwPostUrlShape(handle: string, rkey: string)
    ensures WwwPostUrl(handle, rkey) == WwwCanonical(Bluesky, 0, handle, rkey)
  {
    assert "/post/" + rkey == ['/'] + ("post" + (['/'] + rkey));
  }

  /** The link with `www.` is matched like the canonical one. */
  lemma WwwPostUrlMatches(handle: string, rkey: string)
    requires ValidPost(handle, rkey)
    ensures GetBlueskyUrlsFromMessage(WwwPostUrl(handle, rkey)) == [WwwPostUrl(handle, rkey)]
  {
    WwwPostUrlShape(handle, rkey);
    WwwCanonicalDerives(Bluesky, 0, handle, rkey);
    BlueskyWellFormed();
    WholeTextMatch(Bluesky, WwwPostUrl(handle, rkey), Parse(true, true, 0, 12 + 8 + 9 + |handle|));
  }

  /** Stripping the link with `www.` leaves `www.HANDLE/post/RKEY`. */
  lemma WwwPostUrlStripped(handle: string, rkey: string)
    requires '/' !in handle && ':' !in handle && '/' !in rkey && ':' !in rkey
    ensures StripUrl(WwwPostUrl(handle, rkey)) == "www." + Join3(handle, "post", rkey, '/')
  {
    var path := Join3(handle, "post", rkey, '/');
    var afterScheme := "bsky.app/profile/" + path;
    NoColonAfterScheme("www.bsky.app/profile/", path);
    assert "www." + afterScheme == "www.bsky.app/profile/" + path;
    SchemeRemoved("www." + afterScheme);
    WwwKept(afterScheme);
    PostPathHasNoProfile(handle, rkey);
    RemoveHead("bsky.app/profile/", path, false);
  }

  lemma NoColonAfterScheme(head: string, path: string)
    requires ':' !in head && ':' !in path
    ensures ':' !in head + path
  {
  }

  /** The `www.` is not stripped, so the repository becomes `www.HANDLE`. */
  lemma WwwStaysInRepo(handle: string, rkey: string)
    requires ValidPost(handle, rkey)
    ensures DecomposeUrl(WwwPostUrl(handle, rkey)) == Some(PostAddress("www." + handle, rkey))
  {
    ValidPostCharacters(handle, rkey);
    WwwPostUrlStripped(handle, rkey);
    assert "www." + Join3(handle, "post", rkey, '/') == Join3("www." + handle, "post", rkey, '/');
    SplitJoin3("www." + handle, "post", rkey, '/');
  }

  /** A post link `https://bsky.app/profile/HANDLE/post/RKEY` with the scheme, the host and `/profile/` each written as given. */
  function SpelledPostUrl(scheme: string, host: string, lead: string, handle: string, rkey: string): string {
    Spelled(Bluesky, scheme, host, lead, handle, rkey)
  }

  /** Spellings of `https://`, `bsky.app` and `/profile/` that the case-insensitive pattern accepts. */
  predicate AcceptedSpelling(scheme: string, host: string, lead: string) {
    && SchemeSpelling(scheme)
    && |host| == 8 && TokAt(host, 0, "bsky.app")
    && |lead| == 9 && TokAt(lead, 0, "/profile/")
  }

  /** A message that is just a post link is that one link for every spelling the pattern accepts. */
  lemma SpelledPostUrlMatches(scheme: string, host: string, lead: string, handle: string, rkey: string)
    requires ValidPost(handle, rkey)
    requires AcceptedSpelling(scheme, host, lead)
    ensures var url := SpelledPostUrl(scheme, host, lead, handle, rkey);
      GetBlueskyUrlsFromMessage(url) == [url]
  {
    var url := SpelledPostUrl(scheme, host, lead, handle, rkey);
    var c := Parse(true, false, 0, 8 + |host| + |lead| + |handle|);
    SpelledDerives(Bluesky, 0, scheme, host, lead, handle, rkey);
    BlueskyWellFormed();
    WholeTextMatch(Bluesky, url, c);
  }

  /** A spelling of `/profile/` is a slash, seven characters that are no slash, colon or `b`, and a slash. */
  lemma LeadSpellingCharacters(lead: string)
    requires |lead| == 9 && TokAt(lead, 0, "/profile/")
    ensures lead[0] == '/' && lead[8] == '/'
    ensures forall k :: 1 <= k < 8 ==> lead[k] != '/' && lead[k] != ':' && lead[k] != 'b'
  {
    forall k | 0 <= k < 9
      ensures Lower(lead[k]) == "/profile/"[k]
    {
      assert AtomMatches("/profile/"[k], lead[k]);
    }
  }

  /** After the scheme, a post link holds no `bsky.app/profile/` unless its host and lead are written exactly so. */
  lemma SpelledPathHasNoProfile(host: string, lead: string, handle: string, rkey: string)
    requires |host| == 8 && '/' !in host
    requires |lead| == 9 && TokAt(lead, 0, "/profile/")
    requires host != "bsky.app" || lead != "/profile/"
    requires '/' !in handle && '/' !in rkey
    ensures forall q: nat :: !OccursAt(host + (lead + Join3(handle, "post", rkey, '/')), "bsky.app/profile/", q, false)
  {
    var path := Join3(handle, "post", rkey, '/');
    var s := host + (lead + path);
    var pat := "bsky.app/profile/";
    assert s[..8] == host && s[8..17] == lead && s[17..] == path;
    LeadSpellingCharacters(lead);
    PostPathHasNoProfile(handle, rkey);
    forall q: nat
      ensures !OccursAt(s, pat, q, false)
    {
      if q == 0 {
        if host != "bsky.app" {
          var k :| 0 <= k < 8 && host[k] != pat[k];
          MismatchNoOccurrence(s, pat, q, k, false);
        } else {
          var k :| 0 <= k < 9 && lead[k] != "/profile/"[k];
          assert s[8 + k] == lead[k] && pat[8 + k] == "/profile/"[k];
          MismatchNoOccurrence(s, pat, q, 8 + k, false);
        }
      } else if q < 8 {
        assert s[q + 8] == lead[q];
        MismatchNoOccurrence(s, pat, q, 8, false);
      } else if q < 17 {
        assert s[q] == lead[q - 8];
        MismatchNoOccurrence(s, pat, q, 0, false);
      } else {
        OccursAtDrop(s, pat, 17, q - 17, false);
      }
    }
  }

  /** Stripping a link whose host or lead is not written exactly `bsky.app/profile/` removes the scheme and nothing else. */
  lemma SpelledPostUrlStripped(host: string, lead: string, handle: string, rkey: string)
    requires |host| == 8 && '/' !in host && ':' !in host
    requires |lead| == 9 && TokAt(lead, 0, "/profile/")
    requires host != "bsky.app" || lead != "/profile/"
    requires '/' !in handle && ':' !in handle && '/' !in rkey && ':' !in rkey
    ensures StripUrl(SpelledPostUrl("https://", host, lead, handle, rkey)) == host + (lead + Join3(handle, "post", rkey, '/'))
  {
    var path := Join3(handle, "post", rkey, '/');
    var rest := host + (lead + path);
    assert SpelledPostUrl("https://", host, lead, handle, rkey) == "https://" + rest by {
      assert "/post/" + rkey == ['/'] + ("post" + (['/'] + rkey));
    }
    LeadSpellingCharacters(lead);
    NoColonAfterScheme(host + lead, path);
    assert host + lead + path == rest;
    SchemeRemoved(rest);
    SpelledPathHasNoProfile(host, lead, handle, rkey);
    ReplaceAbsent(rest, "bsky.app/profile/", "", false);
  }

  /**
    The strip removes only the lower-case `bsky.app/profile/`. A link whose host or lead is spelled otherwise
    keeps both, so the host is read as the handle and the handle as the record key.
   */
  lemma SpelledHostStaysInRepo(host: string, lead: string, handle: string, rkey: string)
    requires ValidPost(handle, rkey)
    requires |host| == 8 && '/' !in host && ':' !in host
    requires |lead| == 9 && TokAt(lead, 0, "/profile/")
    requires host != "bsky.app" || lead != "/profile/"
    ensures DecomposeUrl(SpelledPostUrl("https://", host, lead, handle, rkey)) == Some(PostAddress(host, handle))
  {
    ValidPostCharacters(handle, rkey);
    LeadSpellingCharacters(lead);
    var path := Join3(handle, "post", rkey, '/');
    var word := lead[1..8];
    SpelledPostUrlStripped(host, lead, handle, rkey);
    assert lead == ['/'] + word + ['/'];
    assert host + (lead + path) == host + ['/'] + (word + ['/'] + path);
    SplitAtFirst(host, word + ['/'] + path, '/');
    SplitAtFirst(word, path, '/');
    SplitJoin3(handle, "post", rkey, '/');
  }

  /** Neither lower-case scheme occurs anywhere in a text that starts `HTTPS://` and has no colon after it. */
  lemma UpperSchemeNotFound(x: string)
    requires ':' !in x
    ensures forall q: nat :: !OccursAt("HTTPS://" + x, "https://", q, false) && !OccursAt("HTTPS://" + x, "http://", q, false)
  {
    var s := "HTTPS://" + x;
    assert forall j :: 6 <= j < |s| ==> s[j] != ':' by {
      forall j | 6 <= j < |s|
        ensures s[j] != ':'
      {
        if j >= 8 {
          assert s[j] == x[j - 8];
        }
      }
    }
    forall q: nat
      ensures !OccursAt(s, "https://", q, false) && !OccursAt(s, "http://", q, false)
    {
      if q <= 1 {
        MismatchNoOccurrence(s, "https://", q, 0, false);
        MismatchNoOccurrence(s, "http://", q, 0, false);
      } else if q + 5 < |s| {
        MismatchNoOccurrence(s, "https://", q, 5, false);
        MismatchNoOccurrence(s, "http://", q, 4, false);
      } else if q + 4 < |s| {
        MismatchNoOccurrence(s, "http://", q, 4, false);
      }
    }
  }

  /** Stripping a link with the upper-case scheme `HTTPS://` removes only `bsky.app/profile/`. */
  lemma UpperSchemeStripped(handle: string, rkey: string)
    requires '/' !in handle && ':' !in handle && '/' !in rkey && ':' !in rkey
    ensures StripUrl(SpelledPostUrl("HTTPS://", "bsky.app", "/profile/", handle, rkey)) == "HTTPS://" + Join3(handle, "post", rkey, '/')
  {
    var path := Join3(handle, "post", rkey, '/');
    var x := "bsky.app/profile/" + path;
    var s := "HTTPS://" + x;
    assert SpelledPostUrl("HTTPS://", "bsky.app", "/profile/", handle, rkey) == s by {
      assert "/post/" + rkey == ['/'] + ("post" + (['/'] + rkey));
    }
    NoColonAfterScheme("bsky.app/profile/", path);
    UpperSchemeNotFound(x);
    ReplaceAbsent(s, "https://", "", false);
    ReplaceAbsent(s, "http://", "", false);
    PostPathHasNoProfile(handle, rkey);
    ProfileRemovedAfterUpperScheme(path);
  }

  /** After the scheme `HTTPS://`, the one `bsky.app/profile/` that starts the rest is removed. */
  lemma ProfileRemovedAfterUpperScheme(path: string)
    requires forall q: nat :: !OccursAt(path, "bsky.app/profile/", q, false)
    ensures ReplaceAll("HTTPS://" + ("bsky.app/profile/" + path), "bsky.app/profile/", "", false) == "HTTPS://" + path
  {
    var x := "bsky.app/profile/" + path;
    var s := "HTTPS://" + x;
    forall q: nat | q < 8
      ensures !OccursAt(s, "bsky.app/profile/", q, false)
    {
      assert s[q + 8] == "bsky.app"[q];
      MismatchNoOccurrence(s, "bsky.app/profile/", q, 8, false);
    }
    ReplaceKeepsPrefix("HTTPS://", x, "bsky.app/profile/", "", false);
    RemoveHead("bsky.app/profile/", path, false);
  }

  /** A link with the upper-case scheme `HTTPS://` is read as the post `HTTPS:` with key `HANDLE`. */
  lemma UpperSchemeDecomposes(handle: string, rkey: string)
    requires '/' !in handle && ':' !in handle && '/' !in rkey && ':' !in rkey
    ensures DecomposeUrl(SpelledPostUrl("HTTPS://", "bsky.app", "/profile/", handle, rkey)) == Some(PostAddress("HTTPS:", handle))
  {
    var path := Join3(handle, "post", rkey, '/');
    UpperSchemeStripped(handle, rkey);
    assert "HTTPS://" + path == "HTTPS:" + ['/'] + ([] + ['/'] + path);
    SplitAtFirst("HTTPS:", [] + ['/'] + path, '/');
    SplitAtFirst([], path, '/');
    SplitJoin3(handle, "post", rkey, '/');
  }

  /** The pattern accepts the upper-case scheme `HTTPS://` with the host and lead as written. */
  lemma UpperSchemeAccepted()
    ensures AcceptedSpelling("HTTPS://", "bsky.app", "/profile/")
  {
    forall k | 0 <= k < 8
      ensures AtomMatches("https://"[k], "HTTPS://"[k])
    {
    }
    TokAtSelf("bsky.app");
    TokAtSelf("/profile/");
  }

  /**
    The link `HTTPS://bsky.app/profile/HANDLE/post/RKEY` is found, but the upper-case scheme is not stripped:
    the post is read as `HTTPS:` with key `HANDLE`.
   */
  lemma UpperSchemeStaysInRepo(handle: string, rkey: string)
    requires ValidPost(handle, rkey)
    ensures var url := SpelledPostUrl("HTTPS://", "bsky.app", "/profile/", handle, rkey);
      && GetBlueskyUrlsFromMessage(url) == [url]
      && DecomposeUrl(url) == Some(PostAddress("HTTPS:", handle))
  {
    UpperSchemeAccepted();
    SpelledPostUrlMatches("HTTPS://", "bsky.app", "/profile/", handle, rkey);
    ValidPostCharacters(handle, rkey);
    UpperSchemeDecomposes(handle, rkey);
  }

  /** The pattern accepts the upper-case host `BSKY.APP`, which is not the `bsky.app` the strip looks for. */
  lemma UpperHostAccepted()
    ensures AcceptedSpelling("https://", "BSKY.APP", "/profile/")
    ensures "BSKY.APP" != "bsky.app" && '/' !in "BSKY.APP" && ':' !in "BSKY.APP"
  {
    forall k | 0 <= k < 8
      ensures AtomMatches("bsky.app"[k], "BSKY.APP"[k])
    {
    }
    assert "BSKY.APP"[0] != "bsky.app"[0];
    PrefixesMatch();
    TokAtSelf("/profile/");
  }

  /** The upper-case link `https://BSKY.APP/profile/HANDLE/post/RKEY` is found, and is read as the post `BSKY.APP` with key `HANDLE`. */
  lemma UpperHostStaysInRepo(handle: string, rkey: string)
    requires ValidPost(handle, rkey)
    ensures var url := SpelledPostUrl("https://", "BSKY.APP", "/profile/", handle, rkey);
      && GetBlueskyUrlsFromMessage(url) == [url]
      && DecomposeUrl(url) == Some(PostAddress("BSKY.APP", handle))
  {
    UpperHostAccepted();
    SpelledPostUrlMatches("https://", "BSKY.APP", "/profile/", handle, rkey);
    SpelledHostStaysInRepo("BSKY.APP", "/profile/", handle, rkey);
  }

  /** The pattern accepts the upper-case lead `/PROFILE/`, which is not the `/profile/` the strip looks for. */
  lemma UpperLeadAccepted()
    ensures AcceptedSpelling("https://", "bsky.app", "/PROFILE/")
    ensures "/PROFILE/" != "/profile/" && '/' !in "bsky.app" && ':' !in "bsky.app"
  {
    forall k | 0 <= k < 9
      ensures AtomMatches("/profile/"[k], "/PROFILE/"[k])
    {
    }
    assert "/PROFILE/"[1] != "/profile/"[1];
    PrefixesMatch();
    TokAtSelf("bsky.app");
  }

  /** The link `https://bsky.app/PROFILE/HANDLE/post/RKEY` is found, and is read as the post `bsky.app` with key `HANDLE`. */
  lemma UpperLeadStaysInRepo(handle: string, rkey: string)
    requires ValidPost(handle, rkey)
    ensures var url := SpelledPostUrl("https://", "bsky.app", "/PROFILE/", handle, rkey);
      && GetBlueskyUrlsFromMessage(url) == [url]
      && DecomposeUrl(url) == Some(PostAddress("bsky.app", handle))
  {
    UpperLeadAccepted();
    SpelledPostUrlMatches("https://", "bsky.app", "/PROFILE/", handle, rkey);
    SpelledHostStaysInRepo("bsky.app", "/PROFILE/", handle, rkey);
  }

  /** The address `at://DID/COLLECTION/RKEY` of a record. */
  function AtUri(did: string, collection: string, rkey: string): string {
    "at://" + Join3(did, collection, rkey, '/')
  }

  /** An `at://` address splits into its DID, collection and record key. */
  lemma AtUriSegments(did: string, collection: string, rkey: string)
    requires '/' !in did && '/' !in collection && '/' !in rkey && |collection| > 0
    ensures UriSegments(AtUri(did, collection, rkey)) == [did, collection, rkey]
  {
    var path := Join3(did, collection, rkey, '/');
    Join3Separators(did, collection, rkey, '/');
    forall q: nat
      ensures !OccursAt(path, "at://", q, false)
    {
      if q + 5 <= |path| {
        if path[q + 3] != '/' {
          MismatchNoOccurrence(path, "at://", q, 3, false);
        } else {
          MismatchNoOccurrence(path, "at://", q, 4, false);
        }
      }
    }
    RemoveHead("at://", path, false);
    SplitJoin3(did, collection, rkey, '/');
  }

  /** The DID and record key read from an `at://` address are the ones it was made from. */
  lemma AtUriRoundTrip(did: string, collection: string, rkey: string)
    requires '/' !in did && '/' !in collection && '/' !in rkey && |collection| > 0
    requires Contains(did, "did:plc")
    ensures DidFromUri(AtUri(did, collection, rkey)) == Some(did)
    ensures RkeyFromUri(AtUri(did, collection, rkey)) == Some(rkey)
  {
    AtUriSegments(did, collection, rkey);
  }

  // ---------------------------------------------------------------------------------------------
  // One post

  /** The images of a post: those of its media embed if that has any, else those of the embed itself. */
  function ImagesOf(value: PostValue): Option<seq<ImageRef>> {
    match value.embed
    case None => None
    case Some(e) =>
      if e.media.Some? && e.media.value.images.Some? then e.media.value.images else e.images
  }

  function QuotedRecordOf(value: PostValue): Option<QuotedRecord> {
    if value.embed.Some? then value.embed.value.record else None
  }

  /**
    The post's text, followed, when it quotes a post, by the header and either the quoted post's text
    or the unavailable marker; with the calls made to read the quoted post.
   */
  function PostText(api: Api, value: PostValue): (r: (string, seq<ApiCall>))
    ensures |r.1| <= 1
    ensures QuotedRecordOf(value).None? ==> r.0 == value.text
    ensures QuotedRecordOf(value).Some? ==>
      && |r.0| >= |value.text| + |QuotedPostHeader|
      && r.0[..|value.text| + |QuotedPostHeader|] == value.text + QuotedPostHeader
  {
    match QuotedRecordOf(value)
    case None => (value.text, [])
    case Some(q) =>
      var head := value.text + QuotedPostHeader;
      var did := DidFromUri(q.uri);
      var rkey := RkeyFromUri(q.uri);
      if did.Some? && rkey.Some? then
        var call := GetRecordCall(did.value, rkey.value);
        match api.getRecord(did.value, rkey.value)
        case Some(quoted) => (head + quoted.value.text, [call])
        case None => (head + ContentUnavailableText, [call])
      else (head + ContentUnavailableText, [])
  }

  /**
    With a quoted post, the text after the header is the quoted post's text when its address names a DID
    and the record can be read, and the unavailable marker otherwise.
   */
  lemma QuotedTextTail(api: Api, value: PostValue)
    requires QuotedRecordOf(value).Some?
    ensures var uri := QuotedRecordOf(value).value.uri;
      var tail := PostText(api, value).0[|value.text| + |QuotedPostHeader|..];
      var quoted := if DidFromUri(uri).Some? then api.getRecord(DidFromUri(uri).value, RkeyFromUri(uri).value) else None;
      && (quoted.Some? ==> tail == quoted.value.value.text)
      && (quoted.None? ==> tail == ContentUnavailableText)
      && (|PostText(api, value).1| == 1 <==> DidFromUri(uri).Some?)
  {
  }

  /** The images that could be fetched, in order, each with its alt text. */
  function FetchImages(api: Api, did: string, images: seq<ImageRef>): (r: seq<ImageWithMetadata>)
    ensures |r| <= |images|
    decreases |images|
  {
    if |images| == 0 then []
    else
      var rest := FetchImages(api, did, images[1..]);
      match api.getImage(did, images[0].link)
      case Some(bytes) => [ImageWithMetadata(bytes, images[0].alt)] + rest
      case None => rest
  }

  /** Fetching a list is fetching its halves one after the other. */
  lemma {:induction false} FetchImagesAppend(api: Api, did: string, a: seq<ImageRef>, b: seq<ImageRef>)
    ensures FetchImages(api, did, a + b) == FetchImages(api, did, a) + FetchImages(api, did, b)
    decreases |a|
  {
    if |a| > 0 {
      assert (a + b)[1..] == a[1..] + b;
      FetchImagesAppend(api, did, a[1..], b);
    } else {
      assert a + b == b;
    }
  }

  /** One image is kept, with its alt text, exactly when it can be fetched. */
  lemma FetchOneImage(api: Api, did: string, image: ImageRef)
    ensures api.getImage(did, image.link).Some? ==>
      FetchImages(api, did, [image]) == [ImageWithMetadata(api.getImage(did, image.link).value, image.alt)]
    ensures api.getImage(did, image.link).None? ==> FetchImages(api, did, [image]) == []
  {
    assert [image][1..] == [];
  }

  /** A failed fetch drops that image and nothing else. */
  lemma FailedImageDropsOnlyItself(api: Api, did: string, a: seq<ImageRef>, image: ImageRef, b: seq<ImageRef>)
    requires api.getImage(did, image.link).None?
    ensures FetchImages(api, did, a + [image] + b) == FetchImages(api, did, a) + FetchImages(api, did, b)
  {
    FetchImagesAppend(api, did, a + [image], b);
    FetchImagesAppend(api, did, a, [image]);
    FetchOneImage(api, did, image);
  }

  /** When every image can be fetched, every one is kept, in order, with its bytes and its alt text. */
  lemma {:induction false} AllImagesFetched(api: Api, did: string, images: seq<ImageRef>)
    requires forall k :: 0 <= k < |images| ==> api.getImage(did, images[k].link).Some?
    ensures FetchImages(api, did, images) ==
      seq(|images|, k requires 0 <= k < |images| => ImageWithMetadata(api.getImage(did, images[k].link).value, images[k].alt))
    decreases |images|
  {
    if |images| > 0 {
      AllImagesFetched(api, did, images[1..]);
    }
  }

  /** One `GetImage` call per image, in order. */
  function ImageCalls(did: string, images: seq<ImageRef>): (calls: seq<ApiCall>)
    ensures |calls| == |images|
    ensures forall k :: 0 <= k < |calls| ==> calls[k] == GetImageCall(did, images[k].link)
  {
    seq(|images|, k requires 0 <= k < |images| => GetImageCall(did, images[k].link))
  }

  /** How many of the calls are `GetRecord` calls. */
  function RecordCalls(calls: seq<ApiCall>): (n: nat)
    ensures n <= |calls|
  {
    if |calls| == 0 then 0 else (if calls[0].GetRecordCall? then 1 else 0) + RecordCalls(calls[1..])
  }

  lemma {:induction false} RecordCallsAppend(a: seq<ApiCall>, b: seq<ApiCall>)
    ensures RecordCalls(a + b) == RecordCalls(a) + RecordCalls(b)
    decreases |a|
  {
    if |a| > 0 {
      assert (a + b)[1..] == a[1..] + b;
      RecordCallsAppend(a[1..], b);
    } else {
      assert a + b == b;
    }
  }

  lemma {:induction false} ImageCallsAreNotRecordCalls(did: string, images: seq<ImageRef>)
    ensures RecordCalls(ImageCalls(did, images)) == 0
    decreases |images|
  {
    if |images| > 0 {
      assert ImageCalls(did, images)[1..] == ImageCalls(did, images[1..]);
      ImageCallsAreNotRecordCalls(did, images[1..]);
    }
  }

  /**
    One pass of the loop of `GetBlueskyEmbeds`: decompose the link, read the post, read a quoted post, find
    the author's DID, fetch the images. A link that does not decompose, a post that cannot be read and a post
    whose address names no DID are skipped.
   */
  function ResolveUrl(api: Api, url: string): (r: Resolution)
    ensures r.message.None? <==>
      || DecomposeUrl(url).None?
      || api.getRecord(DecomposeUrl(url).value.repo, DecomposeUrl(url).value.rkey).None?
      || DidFromUri(api.getRecord(DecomposeUrl(url).value.repo, DecomposeUrl(url).value.rkey).value.uri).None?
    ensures r.message.Some? ==> r.message.value.title == "@" + DecomposeUrl(url).value.repo
    ensures DecomposeUrl(url).Some? ==> |r.calls| > 0 && r.calls[0] == GetRecordCall(DecomposeUrl(url).value.repo, DecomposeUrl(url).value.rkey)
    ensures DecomposeUrl(url).None? ==> r.calls == []
  {
    match DecomposeUrl(url)
    case None => Resolution(None, [])
    case Some(a) =>
      var first := GetRecordCall(a.repo, a.rkey);
      match api.getRecord(a.repo, a.rkey)
      case None => Resolution(None, [first])
      case Some(record) =>
        var images := ImagesOf(record.value);
        var text := PostText(api, record.value);
        match DidFromUri(record.uri)
        case None => Resolution(None, [first] + text.1)
        case Some(did) =>
          var list := images.GetOr([]);
          Resolution(Some(BlueskyMessage("@" + a.repo, text.0, FetchImages(api, did, list))), [first] + text.1 + ImageCalls(did, list))
  }

  /** Resolving a link reads at most two records: the post and the post it quotes. */
  lemma AtMostTwoRecordReads(api: Api, url: string)
    ensures RecordCalls(ResolveUrl(api, url).calls) <= 2
  {
    var a := DecomposeUrl(url);
    if a.Some? && api.getRecord(a.value.repo, a.value.rkey).Some? {
      var record := api.getRecord(a.value.repo, a.value.rkey).value;
      var first := [GetRecordCall(a.value.repo, a.value.rkey)];
      var quoted := PostText(api, record.value).1;
      RecordCallsAppend(first, quoted);
      match DidFromUri(record.uri)
      case None =>
      case Some(did) =>
        var list := ImagesOf(record.value).GetOr([]);
        RecordCallsAppend(first + quoted, ImageCalls(did, list));
        ImageCallsAreNotRecordCalls(did, list);
    }
  }

  /** The images of a resolved post are the fetchable ones among its media images, else its embed images. */
  lemma ResolvedImages(api: Api, url: string)
    requires ResolveUrl(api, url).message.Some?
    ensures var a := DecomposeUrl(url).value;
      var record := api.getRecord(a.repo, a.rkey).value;
      ResolveUrl(api, url).message.value.images
        == FetchImages(api, DidFromUri(record.uri).value, ImagesOf(record.value).GetOr([]))
  {
  }

  // ---------------------------------------------------------------------------------------------
  // All links of a message

  /** The posts read for `urls`, in link order, skipping the links that could not be resolved. */
  function ResolveAll(api: Api, urls: seq<string>): (r: seq<BlueskyMessage>)
    ensures |r| <= |urls|
    decreases |urls|
  {
    if |urls| == 0 then []
    else
      var rest := ResolveAll(api, urls[1..]);
      match ResolveUrl(api, urls[0]).message
      case Some(m) => [m] + rest
      case None => rest
  }

  /** Resolving a list of links is resolving its halves one after the other: the order of the links is kept. */
  lemma {:induction false} ResolveAllAppend(api: Api, a: seq<string>, b: seq<string>)
    ensures ResolveAll(api, a + b) == ResolveAll(api, a) + ResolveAll(api, b)
    decreases |a|
  {
    if |a| > 0 {
      assert (a + b)[1..] == a[1..] + b;
      ResolveAllAppend(api, a[1..], b);
    } else {
      assert a + b == b;
    }
  }

  /** One link gives its post if it resolves and nothing otherwise. */
  lemma ResolveOne(api: Api, url: string)
    ensures ResolveAll(api, [url]) == (if ResolveUrl(api, url).message.Some? then [ResolveUrl(api, url).message.value] else [])
  {
    assert [url][1..] == [];
  }

  /** `GetBlueskyEmbeds`: the posts of every link of the message. */
  function GetBlueskyEmbeds(api: Api, content: string): seq<BlueskyMessage> {
    ResolveAll(api, GetBlueskyUrlsFromMessage(content))
  }

  // ---------------------------------------------------------------------------------------------
  // Responses

  /** The name of the `index`-th attachment of a response made on `date`. */
  function AttachmentName(date: string, index: nat): string {
    "bsky_" + date + "_" + NatToString(index) + ".png"
  }

  /** Different indices give different names. */
  lemma AttachmentNamesDistinct(date: string, i: nat, j: nat)
    requires i != j
    ensures AttachmentName(date, i) != AttachmentName(date, j)
  {
    if AttachmentName(date, i) == AttachmentName(date, j) {
      var a := NatToString(i);
      var b := NatToString(j);
      var head := "bsky_" + date + "_";
      assert AttachmentName(date, i) == head + (a + ".png");
      assert AttachmentName(date, j) == head + (b + ".png");
      assert |a| == |b|;
      assert a == (head + (a + ".png"))[|head|..|head| + |a|];
      assert b == (head + (b + ".png"))[|head|..|head| + |b|];
      NatToStringInjective(i, j);
    }
  }

  /** `BuildFileAttachmentFromImage`: the image's bytes under its numbered name, described by its alt text. */
  function BuildFileAttachment(date: string, image: ImageWithMetadata, index: nat): FileAttachment {
    FileAttachment(image.image, AttachmentName(date, index), image.altText)
  }

  function ResponseDescription(m: BlueskyMessage, mention: string): string {
    mention + RequestedText + m.title + "\n " + m.description
  }

  /** `BuildCommandResponse`: the post quoted under the mention of who asked, with one attachment per image. */
  function BuildCommandResponse(m: BlueskyMessage, mention: string, date: string): (r: CommandResponse)
    ensures r.notifyWhenReplying == Some(false) && r.allowDeleteButton == Some(true)
    ensures |r.fileAttachments| == |m.images|
    ensures forall k :: 0 <= k < |m.images| ==>
      && r.fileAttachments[k].data == m.images[k].image
      && r.fileAttachments[k].description == m.images[k].altText
      && r.fileAttachments[k].fileName == AttachmentName(date, k)
  {
    var attachments :=
      if |m.images| > 0 then seq(|m.images|, k requires 0 <= k < |m.images| => BuildFileAttachment(date, m.images[k], k))
      else [];
    CommandResponse(Some(ResponseDescription(m, mention)), attachments, Some(false), Some(true))
  }

  /** No two attachments of a response share a file name. */
  lemma AttachmentNamesUnique(m: BlueskyMessage, mention: string, date: string)
    ensures var a := BuildCommandResponse(m, mention, date).fileAttachments;
      forall i, j :: 0 <= i < j < |a| ==> a[i].fileName != a[j].fileName
  {
    var a := BuildCommandResponse(m, mention, date).fileAttachments;
    forall i, j | 0 <= i < j < |a|
      ensures a[i].fileName != a[j].fileName
    {
      AttachmentNamesDistinct(date, i, j);
    }
  }

  /** The response text shows the title and text of the post after the mention of who asked. */
  lemma ResponseDescriptionParts(m: BlueskyMessage, mention: string, date: string)
    ensures var d := BuildCommandResponse(m, mention, date).description.value;
      var n := |mention| + |RequestedText|;
      && d[..n] == mention + RequestedText
      && d[n..n + |m.title|] == m.title
      && d[|d| - |m.description|..] == m.description
  {
  }

  /** The reply to a message without a Bluesky link: only the text is set. */
  const NoLinkResponse := CommandResponse(Some(NoLinkMessage), [], None, None)

  /**
    `HandleMessage`: the no-link reply when there is no Bluesky link, nothing when no post could be read,
    and otherwise one response per post read, in link order.
   */
  function HandleMessage(api: Api, content: string, mention: string, date: string): (r: seq<CommandResponse>)
    ensures !DoesMessageContainBlueskyUrl(content) ==> r == [NoLinkResponse]
    ensures DoesMessageContainBlueskyUrl(content) ==>
      && |r| == |GetBlueskyEmbeds(api, content)|
      && forall k :: 0 <= k < |r| ==> r[k] == BuildCommandResponse(GetBlueskyEmbeds(api, content)[k], mention, date)
  {
    if !DoesMessageContainBlueskyUrl(content) then [NoLinkResponse]
    else
      var messages := GetBlueskyEmbeds(api, content);
      if |messages| == 0 then []
      else seq(|messages|, k requires 0 <= k < |messages| => BuildCommandResponse(messages[k], mention, date))
  }

  /** Every response to a message with a link may be deleted and does not ping, unlike the no-link reply. */
  lemma ResponsesWithLinkFlags(api: Api, content: string, mention: string, date: string)
    requires DoesMessageContainBlueskyUrl(content)
    ensures forall k :: 0 <= k < |HandleMessage(api, content, mention, date)| ==>
      && HandleMessage(api, content, mention, date)[k].allowDeleteButton == Some(true)
      && HandleMessage(api, content, mention, date)[k].notifyWhenReplying == Some(false)
      && HandleMessage(api, content, mention, date)[k] != NoLinkResponse
  {
  }
}

=== FILE: fix_twitter.dfy ===
/**
  The `fix` text command for Twitter links: every tweet URL of a message, with `twitter.com` rewritten
  to `fxtwitter.com`, under a header naming who asked, and the message the answer replies to.
 */
module FixTwitter {
  import opened Wrappers
  import opened Strings
  import opened UrlPatterns

  const NoLinkMessage := "I don't think there's a twitter link there."
  const UnreadableMessage := "I couldn't read that message for some reason, sorry!"

  /** A reply's reference to the message it answers; the id may be unset. */
  datatype Reference = Reference(messageId: Option<nat>)

  datatype ChatMessage = ChatMessage(id: nat, content: string, authorMention: string, reference: Option<Reference>)

  /** The answer's text and the id of the message it replies to. */
  datatype FixedTweets = FixedTweets(text: string, replyTo: nat)

  /** `GetTwitterUrlsFromMessage`: every tweet URL of the text, left to right. */
  function GetTwitterUrlsFromMessage(text: string): seq<string> {
    Matches(Twitter, text)
  }

  predicate DoesMessageContainTwitterUrl(m: ChatMessage) {
    IsMatch(Twitter, m.content)
  }

  /** One URL with every `twitter.com`, in any case, replaced by `fxtwitter.com`. */
  function FixUrl(url: string): string {
    ReplaceAll(url, "twitter.com", "fxtwitter.com", true)
  }

  /** `FixTwitterUrls`: one fixed URL per match, in order. */
  function FixTwitterUrls(m: ChatMessage): (r: seq<string>)
    ensures |r| == |GetTwitterUrlsFromMessage(m.content)|
    ensures forall k :: 0 <= k < |r| ==> r[k] == FixUrl(GetTwitterUrlsFromMessage(m.content)[k])
  {
    var urls := GetTwitterUrlsFromMessage(m.content);
    seq(|urls|, k requires 0 <= k < |urls| => FixUrl(urls[k]))
  }

  /** No fixed URL spans a line break, so each takes exactly one line of the answer. */
  lemma FixedUrlsAreSingleLine(m: ChatMessage)
    ensures forall k :: 0 <= k < |FixTwitterUrls(m)| ==> '\n' !in FixTwitterUrls(m)[k]
  {
    var urls := GetTwitterUrlsFromMessage(m.content);
    TwitterSingleLine();
    MatchesAreSingleLine(Twitter, m.content);
    forall k | 0 <= k < |urls|
      ensures '\n' !in FixUrl(urls[k])
    {
      FixUrlSingleLine(urls[k]);
    }
  }

  lemma FixUrlSingleLine(url: string)
    requires '\n' !in url
    ensures '\n' !in FixUrl(url)
  {
    ReplaceKeepsOut(url, "twitter.com", "fxtwitter.com", true, '\n');
  }

  /** Singular for exactly one tweet, plural otherwise (zero included). */
  function TweetDescription(count: nat): (d: string)
    ensures d == "this tweet" <==> count == 1
    ensures d == "these tweets" <==> count != 1
  {
    if count == 1 then "this tweet" else "these tweets"
  }

  /** The header line, without its line feed. */
  function Header(m: ChatMessage): string {
    m.authorMention + " asked me to fix " + TweetDescription(|FixTwitterUrls(m)|) + ":"
  }

  /** `BuildFixedTweetsMessage`: the header line, then the fixed URLs one per line. */
  function BuildFixedTweetsMessage(m: ChatMessage): string {
    Header(m) + "\n" + Join(FixTwitterUrls(m), "\n")
  }

  /** Read line by line, the message is the header followed by exactly the fixed URLs. */
  lemma FixedMessageLines(m: ChatMessage)
    requires '\n' !in m.authorMention
    requires |FixTwitterUrls(m)| > 0
    ensures Split(BuildFixedTweetsMessage(m), '\n') == [Header(m)] + FixTwitterUrls(m)
  {
    var fixed := FixTwitterUrls(m);
    FixedUrlsAreSingleLine(m);
    assert '\n' !in Header(m);
    SplitAtFirst(Header(m), Join(fixed, "\n"), '\n');
    SplitJoin(fixed, '\n');
  }

  /** Either the fixed message replying to the message that holds the links, or the apology replying to the command. */
  function FixOrApologise(target: ChatMessage, command: ChatMessage): FixedTweets {
    if DoesMessageContainTwitterUrl(target) then FixedTweets(BuildFixedTweetsMessage(target), target.id)
    else FixedTweets(NoLinkMessage, command.id)
  }

  /**
    `GetFixedTwitterMessage`: without a reference the command message itself is fixed; with a reference
    whose id is unset (0) the command's own URLs are returned with no header; otherwise the referenced
    message is fetched through `fetch` and fixed. The answer always exists and replies either to the
    command or to the message it read.
   */
  function GetFixedTwitterMessage(m: ChatMessage, fetch: nat -> Option<ChatMessage>): (r: FixedTweets)
    ensures r.replyTo == m.id || exists f :: ReferencedMessage(m, fetch) == Some(f) && r.replyTo == f.id
  {
    match m.reference
    case None => FixOrApologise(m, m)
    case Some(ref) =>
      var id := ref.messageId.GetOr(0);
      if id == 0 then FixedTweets(Join(FixTwitterUrls(m), "\n"), m.id)
      else
        match fetch(id)
        case None => FixedTweets(UnreadableMessage, m.id)
        case Some(f) => FixOrApologise(f, m)
  }

  /** The message a command refers to, when it refers to one and it can be read. */
  function ReferencedMessage(m: ChatMessage, fetch: nat -> Option<ChatMessage>): Option<ChatMessage> {
    if m.reference.None? || m.reference.value.messageId.GetOr(0) == 0 then None
    else fetch(m.reference.value.messageId.value)
  }

  /** Without a reference: the fixed message replying to the command, or the apology, also replying to it. */
  lemma NoReferenceAnswer(m: ChatMessage, fetch: nat -> Option<ChatMessage>)
    requires m.reference.None?
    ensures var r := GetFixedTwitterMessage(m, fetch);
      && r.replyTo == m.id
      && (DoesMessageContainTwitterUrl(m) ==> r.text == BuildFixedTweetsMessage(m))
      && (!DoesMessageContainTwitterUrl(m) ==> r.text == NoLinkMessage)
  {
  }

  /** A reference with an unset id: the command's own fixed URLs, one per line, with no header (possibly empty). */
  lemma DefaultReferenceAnswer(m: ChatMessage, fetch: nat -> Option<ChatMessage>)
    requires m.reference.Some? && m.reference.value.messageId.GetOr(0) == 0
    ensures var r := GetFixedTwitterMessage(m, fetch);
      && r.replyTo == m.id
      && (|FixTwitterUrls(m)| > 0 ==> Split(r.text, '\n') == FixTwitterUrls(m))
      && (|FixTwitterUrls(m)| == 0 <==> r.text == "")
  {
    var fixed := FixTwitterUrls(m);
    FixedUrlsAreSingleLine(m);
    if |fixed| > 0 {
      SplitJoin(fixed, '\n');
      if |fixed| == 1 {
        assert Join(fixed, "\n") == fixed[0];
        assert fixed[0] != "" by {
          IsMatchIffMatches(Twitter, m.content);
          var s := MatchSpans(Twitter, m.content)[0];
          assert |Matches(Twitter, m.content)[0]| == s.end - s.start > 0;
          FixUrlNonEmpty(Matches(Twitter, m.content)[0]);
        }
      }
    }
  }

  /** Replacing never empties a non-empty URL. */
  lemma FixUrlNonEmpty(url: string)
    requires url != ""
    ensures FixUrl(url) != ""
  {
  }

  /** A referenced message that cannot be read gets the apology, replying to the command. */
  lemma UnreadableReferenceAnswer(m: ChatMessage, fetch: nat -> Option<ChatMessage>)
    requires m.reference.Some? && m.reference.value.messageId.GetOr(0) != 0
    requires fetch(m.reference.value.messageId.value).None?
    ensures GetFixedTwitterMessage(m, fetch) == FixedTweets(UnreadableMessage, m.id)
  {
  }

  /**
    A referenced message that can be read is the one searched for links: the answer replies to it when
    it has one, and to the command with the apology when it has none.
   */
  lemma ReferencedAnswer(m: ChatMessage, fetch: nat -> Option<ChatMessage>, f: ChatMessage)
    requires ReferencedMessage(m, fetch) == Some(f)
    ensures var r := GetFixedTwitterMessage(m, fetch);
      && (DoesMessageContainTwitterUrl(f) ==> r == FixedTweets(BuildFixedTweetsMessage(f), f.id))
      && (!DoesMessageContainTwitterUrl(f) ==> r == FixedTweets(NoLinkMessage, m.id))
  {
  }

  /** A tweet's canonical address: scheme, host, user name and numeric id. */
  function CanonicalUrl(host: string, user: string, id: string): string {
    "https://" + (host + TweetPath(user, id))
  }

  /** The part of the address after the host. */
  function TweetPath(user: string, id: string): string {
    "/" + (user + ("/status/" + id))
  }

  /** A user name and a tweet id as the pattern accepts them. */
  predicate ValidTweet(user: string, id: string) {
    && |user| > 0 && (forall k :: 0 <= k < |user| ==> InClass(Twitter.first, user[k]))
    && |id| > 0 && (forall k :: 0 <= k < |id| ==> '0' <= id[k] <= '9')
  }

  /** No character of a valid user name or id is a dot or a line feed. */
  lemma ValidTweetCharacters(user: string, id: string)
    requires ValidTweet(user, id)
    ensures '.' !in user && '.' !in id
  {
  }

  /** A message that is just the canonical link to a tweet holds exactly that one link. */
  lemma CanonicalUrlMatches(user: string, id: string)
    requires ValidTweet(user, id)
    ensures var url := CanonicalUrl("twitter.com", user, id);
      GetTwitterUrlsFromMessage(url) == [url]
  {
    assert AllIn(user, 0, |user|, Twitter.first) && AllIn(id, 0, |id|, Twitter.last);
    CanonicalDerives(Twitter, 0, user, id);
    TwitterWellFormed();
    WholeTextMatch(Twitter, CanonicalUrl("twitter.com", user, id), Parse(true, false, 0, 20 + |user|));
  }

  /** Nothing in the scheme starts a `twitter.com`. */
  lemma SchemeKeptByFix(b: string)
    ensures FixUrl("https://" + b) == "https://" + FixUrl(b)
  {
    var pat := "twitter.com";
    var url := "https://" + b;
    forall i: nat | i < 8
      ensures !OccursAt(url, pat, i, true)
    {
      if i + |pat| <= |url| {
        if i == 1 || i == 2 {
          MismatchNoOccurrence(url, pat, i, 1, true);
        } else {
          MismatchNoOccurrence(url, pat, i, 0, true);
        }
      }
    }
    ReplaceKeepsPrefix("https://", b, pat, "fxtwitter.com", true);
  }

  /** A leading `twitter.com` is rewritten and the rest is fixed in turn. */
  lemma HostFixed(rest: string)
    ensures FixUrl("twitter.com" + rest) == "fxtwitter.com" + FixUrl(rest)
  {
    var b := "twitter.com" + rest;
    assert b[..11] == "twitter.com";
    ReplaceAtHead(b, "twitter.com", "fxtwitter.com", true);
    assert b[11..] == rest;
  }

  /** Text without a dot holds no `twitter.com`. */
  lemma NoDotKeptByFix(rest: string)
    requires '.' !in rest
    ensures FixUrl(rest) == rest
  {
    AbsentCharNoOccurrence(rest, "twitter.com", '.', true);
    ReplaceAbsent(rest, "twitter.com", "fxtwitter.com", true);
  }

  /** Fixing the canonical link rewrites its host and nothing else. */
  lemma CanonicalUrlFixed(user: string, id: string)
    requires ValidTweet(user, id)
    ensures FixUrl(CanonicalUrl("twitter.com", user, id)) == CanonicalUrl("fxtwitter.com", user, id)
  {
    var rest := TweetPath(user, id);
    ValidTweetCharacters(user, id);
    assert '.' !in rest;
    SchemeKeptByFix("twitter.com" + rest);
    HostFixed(rest);
    NoDotKeptByFix(rest);
  }

  /** The fixed form of a `t.co` link is the link itself: it has no `twitter.com` to rewrite. */
  lemma ShortUrlUnchanged(user: string, id: string)
    requires ValidTweet(user, id)
    ensures FixUrl(CanonicalUrl("t.co", user, id)) == CanonicalUrl("t.co", user, id)
  {
    var pat := "twitter.com";
    var url := CanonicalUrl("t.co", user, id);
    ValidTweetCharacters(user, id);
    forall i: nat
      ensures !OccursAt(url, pat, i, true)
    {
      if i + |pat| <= |url| {
        if i == 2 {
          MismatchNoOccurrence(url, pat, i, 1, true);
        } else {
          assert url[i + 7] != '.';
          MismatchNoOccurrence(url, pat, i, 7, true);
        }
      }
    }
    ReplaceAbsent(url, pat, "fxtwitter.com", true);
  }
  /**
    A tweet link's host is `twitter.com` with a real dot (not just any character where the regex's
    unescaped `.` stands), so the case-insensitive `Replace` finds it.
   */
  predicate TwitterComHost(t: string, i: nat, j: nat, c: Parse) {
    c.host == 0 && HostStart(i, c) + 11 <= j <= |t| && t[HostStart(i, c) + 7] == '.'
  }

  /** Where a pattern literal reads no wildcard dot, the text has no dot either. */
  lemma TokAtNoDot(t: string, x: nat, lit: string, m: nat)
    requires TokAt(t, x, lit) && x <= m < x + |lit| && lit[m - x] != '.'
    ensures t[m] != '.'
  {
    assert AtomMatches(lit[m - x], t[x + (m - x)]);
  }

  /** A class without a dot among its extra characters matches no dot. */
  lemma AllInNoDot(t: string, x: nat, y: nat, k: CharClass, m: nat)
    requires x <= y <= |t| && AllIn(t, x, y, k) && x <= m < y && '.' !in k.extra
    ensures t[m] != '.'
  {
    assert InClass(k, t[m]);
  }

  /** The scheme of a link holds no dot. */
  lemma SchemeNoDot(t: string, i: nat, secure: bool, m: nat)
    requires TokAt(t, i, "http") && TokAt(t, i + 4, if secure then "s://" else "://")
    requires i <= m < i + SchemeLength(secure)
    ensures t[m] != '.'
  {
    if m < i + 4 {
      TokAtNoDot(t, i, "http", m);
    } else {
      TokAtNoDot(t, i + 4, if secure then "s://" else "://", m);
    }
  }

  /** In the `www.` part, only its last character can be a dot. */
  lemma WwwDot(t: string, a: nat, m: nat)
    requires TokAt(t, a, "www.") && a <= m < a + 4 && t[m] == '.'
    ensures m == a + 3
  {
    if m != a + 3 {
      TokAtNoDot(t, a, "www.", m);
    }
  }

  /** In a host, only the regex's wildcard position can be a dot. */
  lemma HostDot(t: string, b: nat, h: nat, m: nat)
    requires h < |Twitter.hosts| && TokAt(t, b, Twitter.hosts[h])
    requires b <= m < b + |Twitter.hosts[h]| && t[m] == '.'
    ensures m == b + (if h == 0 then 7 else 1)
  {
    if m != b + (if h == 0 then 7 else 1) {
      TokAtNoDot(t, b, Twitter.hosts[h], m);
    }
  }

  /** After the host, a tweet link holds no dot: `/`, the user name, `/status/` and the digits. */
  lemma AfterHostNoDot(t: string, e: nat, f: nat, j: nat, m: nat)
    requires AfterHost(Twitter, t, e, f, j) && e <= m < j
    ensures t[m] != '.'
  {
    if m < e + 1 {
      TokAtNoDot(t, e, "/", m);
    } else if m < f {
      AllInNoDot(t, e + 1, f, Twitter.first, m);
    } else if m < f + 8 {
      TokAtNoDot(t, f, "/status/", m);
    } else {
      AllInNoDot(t, f + 8, j, Twitter.last, m);
    }
  }

  /** The only dots a tweet link can hold are the wildcards after `www` and inside the host. */
  lemma DerivedTweetDots(t: string, i: nat, j: nat, c: Parse, m: nat)
    requires Derives(Twitter, t, i, j, c)
    requires i <= m < j && t[m] == '.'
    ensures (c.www && m == i + SchemeLength(c.secure) + 3) || m == HostStart(i, c) + (if c.host == 0 then 7 else 1)
  {
    var a := i + SchemeLength(c.secure);
    var b := HostStart(i, c);
    if m < a {
      SchemeNoDot(t, i, c.secure, m);
    } else if m < b {
      WwwDot(t, a, m);
    } else if m < b + |Twitter.hosts[c.host]| {
      HostDot(t, b, c.host, m);
    } else {
      AfterHostNoDot(t, b + |Twitter.hosts[c.host]|, c.firstEnd, j, m);
    }
  }

  /** The letters of a link that rule out `twitter.com` anywhere but at a `twitter.com` host. */
  lemma TweetLetters(t: string, i: nat, j: nat, c: Parse)
    requires Derives(Twitter, t, i, j, c)
    ensures Lower(t[i + 3]) == 'p'
    ensures c.secure ==> Lower(t[i + 4]) == 's'
    ensures c.host == 1 ==> HostStart(i, c) + 4 < j && t[HostStart(i, c) + 4] == '/'
  {
    assert AtomMatches("http"[3], t[i + 3]);
    if c.secure {
      assert AtomMatches("s://"[0], t[i + 4]);
    }
    if c.host == 1 {
      assert AtomMatches("/"[0], t[HostStart(i, c) + 4 + 0]);
    }
  }

  /** `twitter.com` occurs in a tweet link only at a `twitter.com` host with a real dot. */
  lemma OccurrenceInTweet(t: string, i: nat, j: nat, c: Parse, r: nat)
    requires Derives(Twitter, t, i, j, c)
    requires OccursAt(t[i..j], "twitter.com", r, true)
    ensures i + r == HostStart(i, c) && TwitterComHost(t, i, j, c)
  {
    var s := t[i..j];
    var w := s[r..r + 11];
    assert Lower(w[7]) == Lower("twitter.com"[7]);
    assert Lower(w[0]) == 't' && Lower(w[10]) == 'm';
    SliceOfSlice(t, i, j, r, r + 11);
    assert w[0] == t[i + r] && w[7] == t[i + r + 7] && w[10] == t[i + r + 10];
    DerivedTweetDots(t, i, j, c, i + r + 7);
    TweetLetters(t, i, j, c);
  }

  /** A `twitter.com` host with a real dot is an occurrence of `twitter.com`, ignoring case. */
  lemma TwitterComOccurs(t: string, b: nat)
    requires TokAt(t, b, "twitter.com") && t[b + 7] == '.'
    ensures SameText(t[b..b + 11], "twitter.com", true)
  {
    forall k | 0 <= k < 11
      ensures Lower(t[b..b + 11][k]) == Lower("twitter.com"[k])
    {
      assert AtomMatches("twitter.com"[k], t[b + k]);
    }
  }

  /** Every occurrence of `twitter.com` in a tweet link is at its host, and only a real `twitter.com` host has one. */
  lemma OccurrencesInTweet(t: string, i: nat, j: nat, c: Parse)
    requires Derives(Twitter, t, i, j, c)
    ensures forall r: nat :: OccursAt(t[i..j], "twitter.com", r, true) ==> i + r == HostStart(i, c) && TwitterComHost(t, i, j, c)
  {
    forall r: nat | OccursAt(t[i..j], "twitter.com", r, true)
      ensures i + r == HostStart(i, c) && TwitterComHost(t, i, j, c)
    {
      OccurrenceInTweet(t, i, j, c, r);
    }
  }

  /** A link with a `twitter.com` host has its host rewritten and the rest kept. */
  lemma FixTwitterComHost(t: string, i: nat, j: nat, c: Parse)
    requires Derives(Twitter, t, i, j, c) && TwitterComHost(t, i, j, c)
    ensures FixUrl(t[i..j]) == t[i..HostStart(i, c)] + "fxtwitter.com" + t[HostStart(i, c) + 11..j]
  {
    var s := t[i..j];
    var b := HostStart(i, c);
    var q := b - i;
    OccurrencesInTweet(t, i, j, c);
    TwitterComOccurs(t, b);
    SliceOfSlice(t, i, j, q, q + 11);
    ReplaceSingleOccurrence(s, "twitter.com", "fxtwitter.com", true, q);
    SliceOfSlice(t, i, j, 0, q);
    SliceOfSlice(t, i, j, q + 11, j - i);
    assert s[..q] == s[0..q] && s[q + 11..] == s[q + 11..j - i];
  }

  /** A link without a `twitter.com` host is left as it is. */
  lemma FixOtherHost(t: string, i: nat, j: nat, c: Parse)
    requires Derives(Twitter, t, i, j, c) && !TwitterComHost(t, i, j, c)
    ensures FixUrl(t[i..j]) == t[i..j]
  {
    OccurrencesInTweet(t, i, j, c);
    ReplaceAbsent(t[i..j], "twitter.com", "fxtwitter.com", true);
  }

  /**
    Fixing any tweet link the regex reads: a `twitter.com` host, in any case, becomes `fxtwitter.com`
    and the rest of the link is kept; a `t.co` host, or a host whose dot is some other character,
    leaves the link as it is.
   */
  lemma FixDerivedTweet(t: string, i: nat, j: nat, c: Parse)
    requires Derives(Twitter, t, i, j, c)
    ensures TwitterComHost(t, i, j, c) ==>
      FixUrl(t[i..j]) == t[i..HostStart(i, c)] + "fxtwitter.com" + t[HostStart(i, c) + 11..j]
    ensures !TwitterComHost(t, i, j, c) ==> FixUrl(t[i..j]) == t[i..j]
  {
    if TwitterComHost(t, i, j, c) {
      FixTwitterComHost(t, i, j, c);
    } else {
      FixOtherHost(t, i, j, c);
    }
  }

  /** Each fixed URL is its match with the host rewritten exactly when it is `twitter.com`, in any case. */
  lemma FixTwitterUrlsRewriteHosts(m: ChatMessage, k: nat)
    requires k < |MatchSpans(Twitter, m.content)|
    ensures var sp := MatchSpans(Twitter, m.content)[k];
      var c := MatchAt(Twitter, m.content, sp.start).value.parse;
      var b := HostStart(sp.start, c);
      && (TwitterComHost(m.content, sp.start, sp.end, c) ==>
            FixTwitterUrls(m)[k] == m.content[sp.start..b] + "fxtwitter.com" + m.content[b + 11..sp.end])
      && (!TwitterComHost(m.content, sp.start, sp.end, c) ==> FixTwitterUrls(m)[k] == GetTwitterUrlsFromMessage(m.content)[k])
  {
    var sp := MatchSpans(Twitter, m.content)[k];
    MatchAtSound(Twitter, m.content, sp.start);
    FixDerivedTweet(m.content, sp.start, sp.end, MatchAt(Twitter, m.content, sp.start).value.parse);
  }
}

=== FILE: log_message_builder.dfy ===
/**
  The embeds the bot posts to a server's log channel: the description assembled from an explanation,
  the logged message's text and its first embed, cut to the configured length, plus an attachments field;
  and an embed with one field per dictionary entry.
 */
module LogMessageBuilder {
  import opened Wrappers
  import opened Strings

  /** What replaces the cut-off tail of a text that is too long. */
  const TruncationString := "[...]"

  /** An embed of the logged message, as far as the log embed looks at it. */
  datatype MessageEmbed = MessageEmbed(description: Option<string>, imageUrl: Option<string>)

  /** The logged message: its text, embeds and the URLs of its attachments. */
  datatype LoggedMessage = LoggedMessage(content: string, embeds: seq<MessageEmbed>, attachmentUrls: seq<string>)

  datatype Field = Field(name: string, value: string, isInline: bool)

  /** The embed the builder produces. */
  datatype LogEmbed = LogEmbed(title: string, description: string, imageUrl: Option<string>, fields: seq<Field>)

  /** `TruncateIfLongerThanMaxCharacters`: a text that fits is kept; otherwise its head is kept and `truncation` ends it. */
  function Truncate(content: string, maxCharacters: int, truncation: string): (r: string)
    requires |content| <= maxCharacters || |truncation| <= maxCharacters
    ensures |r| <= maxCharacters || r == content
    ensures |content| <= maxCharacters ==> r == content
    ensures |content| > maxCharacters ==>
      && |r| == maxCharacters
      && r[..maxCharacters - |truncation|] == content[..maxCharacters - |truncation|]
      && r[maxCharacters - |truncation|..] == truncation
  {
    if |content| <= maxCharacters then content
    else content[..maxCharacters - |truncation|] + truncation
  }

  /** Truncating twice is truncating once. */
  lemma TruncateIdempotent(content: string, maxCharacters: int, truncation: string)
    requires |content| <= maxCharacters || |truncation| <= maxCharacters
    ensures var once := Truncate(content, maxCharacters, truncation);
      Truncate(once, maxCharacters, truncation) == once
  {
  }

  /** A cut text is never the original: the two agree on the kept head and differ in length. */
  lemma TruncateShortens(content: string, maxCharacters: int, truncation: string)
    requires |truncation| <= maxCharacters < |content|
    ensures |Truncate(content, maxCharacters, truncation)| < |content|
    ensures content[..maxCharacters - |truncation|] <= Truncate(content, maxCharacters, truncation)
  {
  }

  /** `string.IsNullOrEmpty` on a value that may be null. */
  predicate IsNullOrEmpty(s: Option<string>) {
    s.None? || s.value == ""
  }

  /**
    The description before truncation: the explanation in bold, then the message text on a new line,
    then a rule and the embed's description, each part only when it is non-empty.
   */
  function AssembleDescription(explanation: string, content: string, embedDescription: Option<string>): string {
    (if explanation != "" then "**" + explanation + "**" else "")
    + (if content != "" then "\n" + content else "")
    + (if !IsNullOrEmpty(embedDescription) then "\n-----------\n" + embedDescription.value else "")
  }

  /** The description is empty exactly when all three parts are. */
  lemma DescriptionEmptyIff(explanation: string, content: string, embedDescription: Option<string>)
    ensures AssembleDescription(explanation, content, embedDescription) == ""
      <==> explanation == "" && content == "" && IsNullOrEmpty(embedDescription)
  {
  }

  /** Each part that is present can be read back from where it lands in the description, with its separator. */
  lemma DescriptionParts(explanation: string, content: string, embedDescription: Option<string>)
    ensures var d := AssembleDescription(explanation, content, embedDescription);
      && (explanation != "" ==> d[..|explanation| + 4] == "**" + explanation + "**")
      && (explanation == "" && content != "" ==> d[..|content| + 1] == "\n" + content)
      && (explanation != "" && content != "" ==> d[|explanation| + 4..|explanation| + 5 + |content|] == "\n" + content)
      && (!IsNullOrEmpty(embedDescription) ==> d[|d| - |embedDescription.value| - 13..] == "\n-----------\n" + embedDescription.value)
      && |d| == (if explanation != "" then |explanation| + 4 else 0)
              + (if content != "" then |content| + 1 else 0)
              + (if !IsNullOrEmpty(embedDescription) then |embedDescription.value| + 13 else 0)
  {
    var d := AssembleDescription(explanation, content, embedDescription);
    if explanation != "" {
      assert d == ("**" + explanation + "**") + d[|explanation| + 4..];
    }
    if explanation == "" && content != "" {
      assert d == ("\n" + content) + d[|content| + 1..];
    }
  }

  /** The description and image URL taken from the first embed, if there is one. */
  function FirstEmbedDescription(m: LoggedMessage): Option<string> {
    if |m.embeds| > 0 then m.embeds[0].description else Some("")
  }

  function FirstEmbedImage(m: LoggedMessage): Option<string> {
    if |m.embeds| > 0 then m.embeds[0].imageUrl else None
  }

  /** One link per attachment, numbered from 1, joined with `", "`. */
  function AttachmentLinks(urls: seq<string>): (r: string) {
    Join(seq(|urls|, k requires 0 <= k < |urls| => AttachmentLink(k + 1, urls[k])), ", ")
  }

  function AttachmentLink(number: nat, url: string): string {
    "[Attachment " + NatToString(number) + "](" + url + ")"
  }

  /**
    No attachments give no links, one attachment gives the link numbered 1 alone, and adding an attachment
    appends one link carrying the next number after a `", "`.
   */
  lemma AttachmentLinksAppend(urls: seq<string>, url: string)
    ensures AttachmentLinks([]) == ""
    ensures AttachmentLinks([url]) == AttachmentLink(1, url)
    ensures |urls| > 0 ==> AttachmentLinks(urls + [url]) == AttachmentLinks(urls) + ", " + AttachmentLink(|urls| + 1, url)
  {
    assert seq(1, k requires 0 <= k < 1 => AttachmentLink(k + 1, [url][k])) == [AttachmentLink(1, url)];
    if |urls| > 0 {
      var n := urls + [url];
      var all := seq(|n|, k requires 0 <= k < |n| => AttachmentLink(k + 1, n[k]));
      var front := seq(|urls|, k requires 0 <= k < |urls| => AttachmentLink(k + 1, urls[k]));
      assert all == front + [AttachmentLink(|urls| + 1, url)];
      JoinAppend(front, [AttachmentLink(|urls| + 1, url)], ", ");
    }
  }

  /** The attachments field, present only when the message has attachments. */
  function AttachmentFields(m: LoggedMessage): seq<Field> {
    if |m.attachmentUrls| > 0 then [Field("Attachments", AttachmentLinks(m.attachmentUrls), false)] else []
  }

  /**
    `CreateEmbedBuilder` with `HandleEmbeds`: the assembled description, cut in place when it is longer
    than `maxCharacters`. Cutting needs `maxCharacters` to leave room for the truncation marker.
   */
  function CreateEmbedBuilder(title: string, explanation: string, m: LoggedMessage, maxCharacters: int): (e: LogEmbed)
    requires var d := AssembleDescription(explanation, m.content, FirstEmbedDescription(m));
      |d| <= maxCharacters || |TruncationString| <= maxCharacters
    ensures e.title == title && e.imageUrl == FirstEmbedImage(m)
    ensures |e.fields| <= 1 && (|e.fields| == 1 <==> |m.attachmentUrls| > 0)
    ensures |m.attachmentUrls| > 0 ==> e.fields == [Field("Attachments", AttachmentLinks(m.attachmentUrls), false)]
    ensures |e.description| <= maxCharacters || e.description == AssembleDescription(explanation, m.content, FirstEmbedDescription(m))
  {
    var description := AssembleDescription(explanation, m.content, FirstEmbedDescription(m));
    var cut :=
      if |description| <= maxCharacters then description
      else description[..maxCharacters - |TruncationString|] + TruncationString;
    LogEmbed(title, cut, FirstEmbedImage(m), AttachmentFields(m))
  }

  /** The in-place cut of the description is the same rule as `Truncate`. */
  lemma DescriptionIsTruncated(title: string, explanation: string, m: LoggedMessage, maxCharacters: int)
    requires var d := AssembleDescription(explanation, m.content, FirstEmbedDescription(m));
      |d| <= maxCharacters || |TruncationString| <= maxCharacters
    ensures CreateEmbedBuilder(title, explanation, m, maxCharacters).description
         == Truncate(AssembleDescription(explanation, m.content, FirstEmbedDescription(m)), maxCharacters, TruncationString)
  {
  }

  /** Only the first embed of the message is looked at. */
  lemma OnlyFirstEmbedCounts(title: string, explanation: string, m: LoggedMessage, rest: seq<MessageEmbed>, maxCharacters: int)
    requires |m.embeds| > 0
    requires var d := AssembleDescription(explanation, m.content, FirstEmbedDescription(m));
      |d| <= maxCharacters || |TruncationString| <= maxCharacters
    ensures var m' := m.(embeds := [m.embeds[0]] + rest);
      CreateEmbedBuilder(title, explanation, m', maxCharacters) == CreateEmbedBuilder(title, explanation, m, maxCharacters)
  {
  }

  /** `CreateEmbedBuilderWithFields`: one field per entry, in order, named by the key, with the value truncated. */
  function CreateEmbedBuilderWithFields(title: string, description: string, entries: seq<(string, string)>, maxCharacters: int): (e: LogEmbed)
    requires forall k :: 0 <= k < |entries| ==> |entries[k].1| <= maxCharacters || |TruncationString| <= maxCharacters
    ensures e.title == title && e.description == description && e.imageUrl.None?
    ensures |e.fields| == |entries|
    ensures forall k :: 0 <= k < |entries| ==>
      && e.fields[k].name == entries[k].0
      && !e.fields[k].isInline
      && (|e.fields[k].value| <= maxCharacters || e.fields[k].value == entries[k].1)
      && (|entries[k].1| <= maxCharacters ==> e.fields[k].value == entries[k].1)
      && (|entries[k].1| > maxCharacters ==>
            && |e.fields[k].value| == maxCharacters
            && e.fields[k].value[..maxCharacters - |TruncationString|] == entries[k].1[..maxCharacters - |TruncationString|]
            && e.fields[k].value[maxCharacters - |TruncationString|..] == TruncationString)
  {
    LogEmbed(title, description, None,
      seq(|entries|, k requires 0 <= k < |entries| => Field(entries[k].0, Truncate(entries[k].1, maxCharacters, TruncationString), false)))
  }

  /** Each field value is cut by the same rule as `Truncate`, which the description of a log embed also follows. */
  lemma FieldValuesAreTruncated(title: string, description: string, entries: seq<(string, string)>, maxCharacters: int)
    requires forall k :: 0 <= k < |entries| ==> |entries[k].1| <= maxCharacters || |TruncationString| <= maxCharacters
    ensures var e := CreateEmbedBuilderWithFields(title, description, entries, maxCharacters);
      forall k :: 0 <= k < |entries| ==> e.fields[k].value == Truncate(entries[k].1, maxCharacters, TruncationString)
  {
  }
}

=== FILE: reaction_added.dfy ===
/**
  What the bot does when someone adds a reaction: a fixed sequence of gates (who reacted, which emote,
  whether the message can be read, how many have already reacted, where, whether the server has the fix
  turned on, and whether the message holds a link to fix), and then the posts it makes.

  The handler runs in a fire-and-forget task; here it is one pure decision per event. The commands it
  calls for Twitter and Instagram are not part of this model and come in as a `Commands` record of
  functions; the Bluesky emote and link test are the ones of `FixBluesky`.
 */
module ReactionAdded {
  import opened Wrappers
  import opened Chat
  import opened GuildConfig
  import FixBluesky

  datatype TriggerKeyword = FixTwitter | BreakTwitter | FixInstagram | BreakInstagram | FixBluesky

  /** Who reacted: not known, a user outside a server, or a server member. Only a member shows as a bot. */
  datatype Reactor = UnknownUser | PlainUser(isBot: bool) | GuildMember(isBot: bool)

  /** One entry of a message's reaction table: an emote and how many reacted with it. */
  datatype ReactionEntry = ReactionEntry(emote: Emote, count: nat)

  datatype ReactedMessage = ReactedMessage(id: nat, content: string, reactions: seq<ReactionEntry>)

  /** A reaction event: the reactor, the emote, the message if it could be downloaded, the channel kind, the server's settings. */
  datatype ReactionEvent = ReactionEvent(
    reactor: Reactor,
    emote: Emote,
    message: Option<ReactedMessage>,
    inGuildChannel: bool,
    config: Option<GuildConfiguration>)

  /** An embed as far as the handler copies it. */
  datatype Embed = Embed(title: string, description: string, imageUrl: Option<string>, footer: Option<string>)

  /** A Bluesky embed and the image to send with it, if any. */
  datatype FixedEmbed = FixedEmbed(embed: Embed, image: Option<Bytes>)

  /** The command members the handler calls that this model does not define. */
  datatype Commands = Commands(
    fixTwitterEmote: Emote,
    fixInstagramEmote: Emote,
    containsTwitterUrl: ReactedMessage -> bool,
    containsFxTwitterUrl: ReactedMessage -> bool,
    containsInstagramUrl: ReactedMessage -> bool,
    containsDdInstagramUrl: ReactedMessage -> bool,
    fixedTwitterMessage: (ReactedMessage, TriggerKeyword) -> Option<string>,
    twitterNoLinkMessage: string,
    fixedInstagramMessage: (ReactedMessage, TriggerKeyword) -> Option<string>,
    instagramNoLinkMessage: string,
    fixedBlueskyMessage: ReactedMessage -> seq<FixedEmbed>)

  /** A post the bot makes, each replying to the reacted message. */
  datatype Action =
    | Reply(text: string)
    | ReplyWithEmbed(embed: Embed)
    | SendFile(fileName: string, data: Bytes, embed: Embed)

  /** The gate at which an event stopped. */
  datatype Gate =
    | ReactorIsBot
    | NotAFixEmote
    | MessageUnavailable
    | TooManyReactions
    | NotInServer
    | TurnedOff
    | NoLinkFound
    | NothingToPost

  datatype Outcome = Halted(gate: Gate) | Posted(actions: seq<Action>)

  /** Which fix emotes the reaction is. */
  datatype Flags = Flags(twitter: bool, instagram: bool, bluesky: bool) {
    predicate Any() { twitter || instagram || bluesky }
  }

  function FlagsFor(emote: Emote, cmds: Commands): Flags {
    Flags(SameEmote(emote, cmds.fixTwitterEmote), SameEmote(emote, cmds.fixInstagramEmote), SameEmote(emote, FixBluesky.FixBlueskyEmote))
  }

  /** The count of the first entry for `emote` in the reaction table, or 0 when there is none. */
  function ReactionCount(reactions: seq<ReactionEntry>, emote: Emote): (n: nat)
    ensures (forall k :: 0 <= k < |reactions| ==> !SameEmote(reactions[k].emote, emote)) ==> n == 0
    ensures n > 0 ==> exists k :: 0 <= k < |reactions| && SameEmote(reactions[k].emote, emote) && reactions[k].count == n
    decreases |reactions|
  {
    if |reactions| == 0 then 0
    else if SameEmote(reactions[0].emote, emote) then reactions[0].count
    else
      var n := ReactionCount(reactions[1..], emote);
      assert forall k :: 0 < k < |reactions| ==> reactions[k] == reactions[1..][k - 1];
      n
  }

  /** The count is the one of the first entry for the emote. */
  lemma {:induction false} ReactionCountFirst(reactions: seq<ReactionEntry>, emote: Emote, k: nat)
    requires k < |reactions| && SameEmote(reactions[k].emote, emote)
    requires forall m :: 0 <= m < k ==> !SameEmote(reactions[m].emote, emote)
    ensures ReactionCount(reactions, emote) == reactions[k].count
    decreases k
  {
    if k > 0 {
      ReactionCountFirst(reactions[1..], emote, k - 1);
    }
  }

  /** The emote whose count is checked: of the flags set, the last in the order Twitter, Instagram, Bluesky. */
  function TalliedEmote(f: Flags, cmds: Commands): Emote {
    if f.bluesky then FixBluesky.FixBlueskyEmote
    else if f.instagram then cmds.fixInstagramEmote
    else cmds.fixTwitterEmote
  }

  /** A set per-platform setting that is off stops the event; settings that could not be read stop nothing. */
  predicate IsTurnedOff(f: Flags, config: Option<GuildConfiguration>) {
    || (f.twitter && config.Some? && !config.value.enableFixTweetReactions)
    || (f.instagram && config.Some? && !config.value.enableFixInstagramReactions)
    || (f.bluesky && config.Some? && !config.value.enableFixBlueskyReactions)
  }

  /**
    The keyword: for Twitter, an original link means `FixTwitter` and otherwise a fixed link `BreakTwitter`;
    Instagram likewise; Bluesky only knows `FixBluesky`. A later platform's keyword replaces an earlier one.
   */
  function Keyword(f: Flags, cmds: Commands, m: ReactedMessage): Option<TriggerKeyword> {
    var afterTwitter :=
      if !f.twitter then None
      else if cmds.containsTwitterUrl(m) then Some(FixTwitter)
      else if cmds.containsFxTwitterUrl(m) then Some(BreakTwitter)
      else None;
    var afterInstagram :=
      if !f.instagram then afterTwitter
      else if cmds.containsInstagramUrl(m) then Some(FixInstagram)
      else if cmds.containsDdInstagramUrl(m) then Some(BreakInstagram)
      else afterTwitter;
    if f.bluesky && FixBluesky.DoesMessageContainBlueskyUrl(m.content) then Some(FixBluesky) else afterInstagram
  }

  /** The name of the image file sent with a Bluesky embed. */
  function BlueskyFileName(today: string): string {
    "bsky_" + today + ".png"
  }

  /**
    One Bluesky embed: with an image, the image as a file and a new embed that shows it, carrying the
    title, text and footer over; without one, the embed as it is.
   */
  function BlueskyAction(e: FixedEmbed, today: string): Action {
    match e.image
    case Some(bytes) =>
      var name := BlueskyFileName(today);
      SendFile(name, bytes, Embed(e.embed.title, e.embed.description, Some("attachment://" + name), e.embed.footer))
    case None => ReplyWithEmbed(e.embed)
  }

  /** A fixed text is posted unless there is none or it is the command's no-link apology. */
  function PostText(fixed: Option<string>, noLinkMessage: string): Outcome {
    if fixed.None? || fixed.value == noLinkMessage then Halted(NothingToPost) else Posted([Reply(fixed.value)])
  }

  /** The posts for a message that passed every gate; Twitter is served first, then Instagram, then Bluesky. */
  function Post(f: Flags, keyword: TriggerKeyword, m: ReactedMessage, cmds: Commands, today: string): Outcome {
    if f.twitter then PostText(cmds.fixedTwitterMessage(m, keyword), cmds.twitterNoLinkMessage)
    else if f.instagram then PostText(cmds.fixedInstagramMessage(m, keyword), cmds.instagramNoLinkMessage)
    else
      var embeds := cmds.fixedBlueskyMessage(m);
      if |embeds| == 0 then Halted(NothingToPost)
      else Posted(seq(|embeds|, k requires 0 <= k < |embeds| => BlueskyAction(embeds[k], today)))
  }

  /** The gates after the message has been read. */
  function AfterDownload(f: Flags, m: ReactedMessage, ev: ReactionEvent, cmds: Commands, today: string): Outcome {
    if ReactionCount(m.reactions, TalliedEmote(f, cmds)) > 2 then Halted(TooManyReactions)
    else if !ev.inGuildChannel then Halted(NotInServer)
    else if IsTurnedOff(f, ev.config) then Halted(TurnedOff)
    else
      match Keyword(f, cmds, m)
      case None => Halted(NoLinkFound)
      case Some(keyword) => Post(f, keyword, m, cmds, today)
  }

  /** The handler's decision for one reaction event; `today` is the date text used in file names. */
  function Decide(ev: ReactionEvent, cmds: Commands, today: string): Outcome {
    if ev.reactor == GuildMember(true) then Halted(ReactorIsBot)
    else
      var f := FlagsFor(ev.emote, cmds);
      if !f.Any() then Halted(NotAFixEmote)
      else if ev.message.None? then Halted(MessageUnavailable)
      else AfterDownload(f, ev.message.value, ev, cmds, today)
  }

  // ---------------------------------------------------------------------------------------------
  // Properties

  /** A reaction by a bot that is a server member stops at once, and only such a reaction stops there. */
  lemma BotStopsFirst(ev: ReactionEvent, cmds: Commands, today: string)
    ensures Decide(ev, cmds, today) == Halted(ReactorIsBot) <==> ev.reactor == GuildMember(true)
  {
  }

  /** A reaction that is none of the fix emotes, or on a message that cannot be read, posts nothing. */
  lemma UnrecognisedOrMissingStops(ev: ReactionEvent, cmds: Commands, today: string)
    requires !FlagsFor(ev.emote, cmds).Any() || ev.message.None?
    ensures Decide(ev, cmds, today).Halted?
  {
  }

  /** Whatever is posted passed every gate. */
  lemma PostedPassedEveryGate(ev: ReactionEvent, cmds: Commands, today: string)
    requires Decide(ev, cmds, today).Posted?
    ensures ev.reactor != GuildMember(true)
    ensures FlagsFor(ev.emote, cmds).Any() && ev.message.Some?
    ensures ReactionCount(ev.message.value.reactions, TalliedEmote(FlagsFor(ev.emote, cmds), cmds)) <= 2
    ensures ev.inGuildChannel
    ensures !IsTurnedOff(FlagsFor(ev.emote, cmds), ev.config)
    ensures Keyword(FlagsFor(ev.emote, cmds), cmds, ev.message.value).Some?
    ensures |Decide(ev, cmds, today).actions| > 0
  {
  }

  /** Past the first three gates, the event stops at the count gate exactly when more than two have reacted. */
  lemma CountGate(ev: ReactionEvent, cmds: Commands, today: string)
    requires ev.reactor != GuildMember(true) && FlagsFor(ev.emote, cmds).Any() && ev.message.Some?
    ensures Decide(ev, cmds, today) == Halted(TooManyReactions)
      <==> ReactionCount(ev.message.value.reactions, TalliedEmote(FlagsFor(ev.emote, cmds), cmds)) > 2
  {
  }

  /** A message with no entry for the emote counts 0 and passes the count gate. */
  lemma MissingEntryPasses(ev: ReactionEvent, cmds: Commands, today: string)
    requires ev.reactor != GuildMember(true) && FlagsFor(ev.emote, cmds).Any() && ev.message.Some?
    requires var e := TalliedEmote(FlagsFor(ev.emote, cmds), cmds);
      forall k :: 0 <= k < |ev.message.value.reactions| ==> !SameEmote(ev.message.value.reactions[k].emote, e)
    ensures Decide(ev, cmds, today) != Halted(TooManyReactions)
  {
  }

  /** Settings that could not be read never stop an event. */
  lemma UnreadSettingsDoNotStop(ev: ReactionEvent, cmds: Commands, today: string)
    requires ev.config.None?
    ensures Decide(ev, cmds, today) != Halted(TurnedOff)
  {
  }

  /** A platform turned off stops every event that reaches the settings gate for it. */
  lemma TurnedOffStops(ev: ReactionEvent, cmds: Commands, today: string)
    requires ev.reactor != GuildMember(true) && ev.message.Some? && ev.inGuildChannel
    requires SameEmote(ev.emote, FixBluesky.FixBlueskyEmote)
    requires ev.config.Some? && !ev.config.value.enableFixBlueskyReactions
    requires ReactionCount(ev.message.value.reactions, FixBluesky.FixBlueskyEmote) <= 2
    ensures Decide(ev, cmds, today) == Halted(TurnedOff)
  {
  }

  /** The gates before the settings gate do not look at the settings. */
  lemma EarlyGatesIgnoreSettings(ev: ReactionEvent, cmds: Commands, today: string, config: Option<GuildConfiguration>)
    requires Decide(ev, cmds, today).Halted?
    requires Decide(ev, cmds, today).gate in {ReactorIsBot, NotAFixEmote, MessageUnavailable, TooManyReactions, NotInServer}
    ensures Decide(ev.(config := config), cmds, today) == Decide(ev, cmds, today)
  {
  }

  /** For a Twitter reaction, an original link wins over a fixed one; a fixed link alone asks to break it. */
  lemma TwitterKeyword(cmds: Commands, m: ReactedMessage)
    ensures var f := Flags(true, false, false);
      && (cmds.containsTwitterUrl(m) ==> Keyword(f, cmds, m) == Some(FixTwitter))
      && (!cmds.containsTwitterUrl(m) && cmds.containsFxTwitterUrl(m) ==> Keyword(f, cmds, m) == Some(BreakTwitter))
      && (!cmds.containsTwitterUrl(m) && !cmds.containsFxTwitterUrl(m) ==> Keyword(f, cmds, m).None?)
  {
  }

  /** For an Instagram reaction, an original link wins over a fixed one; a fixed link alone asks to break it. */
  lemma InstagramKeyword(cmds: Commands, m: ReactedMessage)
    ensures var f := Flags(false, true, false);
      && (cmds.containsInstagramUrl(m) ==> Keyword(f, cmds, m) == Some(FixInstagram))
      && (!cmds.containsInstagramUrl(m) && cmds.containsDdInstagramUrl(m) ==> Keyword(f, cmds, m) == Some(BreakInstagram))
      && (!cmds.containsInstagramUrl(m) && !cmds.containsDdInstagramUrl(m) ==> Keyword(f, cmds, m).None?)
  {
  }

  /** A Bluesky reaction only ever asks to fix, and only when the message has a Bluesky link. */
  lemma BlueskyKeyword(cmds: Commands, m: ReactedMessage)
    ensures var f := Flags(false, false, true);
      Keyword(f, cmds, m) == (if FixBluesky.DoesMessageContainBlueskyUrl(m.content) then Some(FixBluesky) else None)
  {
  }

  /** The no-link apology of the Twitter command is never posted from a reaction. */
  lemma NoApologyPosted(ev: ReactionEvent, cmds: Commands, today: string, k: nat)
    requires Decide(ev, cmds, today).Posted? && k < |Decide(ev, cmds, today).actions|
    requires Decide(ev, cmds, today).actions[k].Reply?
    ensures var f := FlagsFor(ev.emote, cmds);
      var text := Decide(ev, cmds, today).actions[k].text;
      && (f.twitter ==> text != cmds.twitterNoLinkMessage)
      && (!f.twitter && f.instagram ==> text != cmds.instagramNoLinkMessage)
  {
  }

  /** A Twitter reaction that passes the gates posts exactly one reply with the fixed text. */
  lemma TwitterPostsOneReply(ev: ReactionEvent, cmds: Commands, today: string)
    requires Decide(ev, cmds, today).Posted? && FlagsFor(ev.emote, cmds).twitter
    ensures var m := ev.message.value;
      var keyword := Keyword(FlagsFor(ev.emote, cmds), cmds, m).value;
      Decide(ev, cmds, today) == Posted([Reply(cmds.fixedTwitterMessage(m, keyword).value)])
  {
  }

  /**
    A Bluesky-only reaction that passes the gates posts one action per embed, in order, and nothing when
    there are no embeds.
   */
  lemma BlueskyPostsPerEmbed(ev: ReactionEvent, cmds: Commands, today: string)
    requires ev.reactor != GuildMember(true) && ev.message.Some? && ev.inGuildChannel
    requires FlagsFor(ev.emote, cmds) == Flags(false, false, true)
    requires ReactionCount(ev.message.value.reactions, FixBluesky.FixBlueskyEmote) <= 2
    requires !IsTurnedOff(FlagsFor(ev.emote, cmds), ev.config)
    requires FixBluesky.DoesMessageContainBlueskyUrl(ev.message.value.content)
    ensures var embeds := cmds.fixedBlueskyMessage(ev.message.value);
      var r := Decide(ev, cmds, today);
      && (|embeds| == 0 ==> r == Halted(NothingToPost))
      && (|embeds| > 0 ==>
            (r.Posted? && |r.actions| == |embeds| && forall k :: 0 <= k < |embeds| ==> r.actions[k] == BlueskyAction(embeds[k], today)))
  {
  }

  /** An embed with an image goes out as that image, shown by a copy of the embed; one without goes out unchanged. */
  lemma BlueskyActionShape(e: FixedEmbed, today: string)
    ensures e.image.Some? ==>
      var a := BlueskyAction(e, today);
      && a.SendFile? && a.fileName == "bsky_" + today + ".png" && a.data == e.image.value
      && a.embed.imageUrl == Some("attachment://" + a.fileName)
      && a.embed.title == e.embed.title && a.embed.description == e.embed.description && a.embed.footer == e.embed.footer
    ensures e.image.None? ==> BlueskyAction(e, today) == ReplyWithEmbed(e.embed)
  {
  }
}

=== FILE: strings.dfy ===
/**
  The .NET string operations the bot relies on, written out: ordinal and
  case-insensitive `Replace`, `Split` on one character, `string.Join`,
  `Contains`, and the decimal rendering of a non-negative `int`.
 */
module Strings {

  /** ASCII case folding: the part of .NET's invariant-culture case mapping this model keeps. */
  function Lower(c: char): char {
    if 'A' <= c <= 'Z' then (c as int + 32) as char else c
  }

  /** `a` and `b` are the same text, compared ordinally or ignoring (ASCII) case. */
  predicate SameText(a: string, b: string, ignoreCase: bool) {
    && |a| == |b|
    && forall k :: 0 <= k < |a| ==> (if ignoreCase then Lower(a[k]) == Lower(b[k]) else a[k] == b[k])
  }

  /** `pat` occurs in `s` starting at index `i`. */
  predicate OccursAt(s: string, pat: string, i: nat, ignoreCase: bool) {
    i + |pat| <= |s| && SameText(s[i..i + |pat|], pat, ignoreCase)
  }

  /** Ordinal `string.Contains(string)`. */
  predicate Contains(s: string, pat: string) {
    exists i :: 0 <= i <= |s| - |pat| && OccursAt(s, pat, i, false)
  }

  /**
    `string.Replace(pat, rep)` (ordinal) or `string.Replace(pat, rep, InvariantCultureIgnoreCase)`:
    scans left to right and replaces every non-overlapping occurrence. .NET refuses an empty `pat`.
   */
  function ReplaceAll(s: string, pat: string, rep: string, ignoreCase: bool): string
    requires |pat| > 0
    decreases |s|
  {
    if |s| < |pat| then s
    else if SameText(s[..|pat|], pat, ignoreCase) then rep + ReplaceAll(s[|pat|..], pat, rep, ignoreCase)
    else [s[0]] + ReplaceAll(s[1..], pat, rep, ignoreCase)
  }

  /** An occurrence in the text after its first character is one a position further on in the text. */
  lemma OccursAtTail(s: string, pat: string, i: nat, ignoreCase: bool)
    requires |s| > 0
    ensures OccursAt(s[1..], pat, i, ignoreCase) == OccursAt(s, pat, i + 1, ignoreCase)
  {
    if i + |pat| <= |s[1..]| {
      assert s[1..][i..i + |pat|] == s[i + 1..i + 1 + |pat|];
    }
  }

  /** A string in which `pat` never occurs is returned unchanged by `ReplaceAll`. */
  lemma {:induction false} ReplaceAbsent(s: string, pat: string, rep: string, ignoreCase: bool)
    requires |pat| > 0
    requires forall i: nat :: !OccursAt(s, pat, i, ignoreCase)
    ensures ReplaceAll(s, pat, rep, ignoreCase) == s
    decreases |s|
  {
    if |s| >= |pat| {
      assert !OccursAt(s, pat, 0, ignoreCase);
      assert s[0..|pat|] == s[..|pat|];
      forall i: nat
        ensures !OccursAt(s[1..], pat, i, ignoreCase)
      {
        OccursAtTail(s, pat, i, ignoreCase);
        assert !OccursAt(s, pat, i + 1, ignoreCase);
      }
      ReplaceAbsent(s[1..], pat, rep, ignoreCase);
      assert s == [s[0]] + s[1..];
    }
  }

  /** Where `pat` does not occur at the front, `ReplaceAll` copies the first character and goes on. */
  lemma ReplaceCopiesFirst(s: string, pat: string, rep: string, ignoreCase: bool)
    requires 0 < |pat| <= |s| && !OccursAt(s, pat, 0, ignoreCase)
    ensures ReplaceAll(s, pat, rep, ignoreCase) == [s[0]] + ReplaceAll(s[1..], pat, rep, ignoreCase)
  {
    assert s[0..|pat|] == s[..|pat|];
  }

  /** Dropping the first character of `p` keeps `p`'s positions free of occurrences. */
  lemma OccurrenceFreeTail(p: string, b: string, pat: string, ignoreCase: bool)
    requires |p| > 0
    requires forall i: nat :: i < |p| ==> !OccursAt(p + b, pat, i, ignoreCase)
    ensures forall i: nat :: i < |p[1..]| ==> !OccursAt(p[1..] + b, pat, i, ignoreCase)
  {
    var s := p + b;
    assert s[1..] == p[1..] + b;
    forall i: nat | i < |p[1..]|
      ensures !OccursAt(p[1..] + b, pat, i, ignoreCase)
    {
      OccursAtTail(s, pat, i, ignoreCase);
      assert !OccursAt(s, pat, i + 1, ignoreCase);
    }
  }

  /**
    Characters in front of `b` at which no occurrence of `pat` starts (not even one reaching into `b`)
    are copied unchanged, and replacement continues on `b`.
   */
  lemma {:induction false} ReplaceKeepsPrefix(p: string, b: string, pat: string, rep: string, ignoreCase: bool)
    requires |pat| > 0
    requires forall i: nat :: i < |p| ==> !OccursAt(p + b, pat, i, ignoreCase)
    ensures ReplaceAll(p + b, pat, rep, ignoreCase) == p + ReplaceAll(b, pat, rep, ignoreCase)
    decreases |p|
  {
    if |p| > 0 {
      var s := p + b;
      assert !OccursAt(s, pat, 0, ignoreCase);
      if |s| >= |pat| {
        ReplaceCopiesFirst(s, pat, rep, ignoreCase);
        OccurrenceFreeTail(p, b, pat, ignoreCase);
        ReplaceKeepsPrefix(p[1..], b, pat, rep, ignoreCase);
        assert s[1..] == p[1..] + b;
        assert p == [p[0]] + p[1..];
      } else {
        forall i: nat ensures !OccursAt(b, pat, i, ignoreCase) { }
        ReplaceAbsent(b, pat, rep, ignoreCase);
      }
    } else {
      assert p + b == b;
    }
  }

  /** A slice of a slice is a slice of the whole. */
  lemma SliceOfSlice(t: string, i: nat, j: nat, x: nat, y: nat)
    requires i <= j <= |t| && x <= y <= j - i
    ensures t[i..j][x..y] == t[i + x..i + y]
  {
    assert forall k :: 0 <= k < y - x ==> t[i..j][x..y][k] == t[i + x..i + y][k];
  }

  /** An occurrence in a suffix of the text is one in the text, further on by the suffix's start. */
  lemma OccursAtDrop(s: string, pat: string, d: nat, r: nat, ignoreCase: bool)
    requires d <= |s|
    ensures OccursAt(s[d..], pat, r, ignoreCase) == OccursAt(s, pat, d + r, ignoreCase)
  {
    if r + |pat| <= |s[d..]| {
      assert s[d..][r..r + |pat|] == s[d + r..d + r + |pat|];
    }
  }

  /** A text where `pat` occurs once only has that one occurrence replaced, and nothing else changes. */
  lemma ReplaceSingleOccurrence(s: string, pat: string, rep: string, ignoreCase: bool, q: nat)
    requires |pat| > 0 && OccursAt(s, pat, q, ignoreCase)
    requires forall r: nat :: OccursAt(s, pat, r, ignoreCase) ==> r == q
    ensures ReplaceAll(s, pat, rep, ignoreCase) == s[..q] + rep + s[q + |pat|..]
  {
    var front := s[..q];
    var rest := s[q..];
    assert front + rest == s;
    ReplaceKeepsPrefix(front, rest, pat, rep, ignoreCase);
    OccursAtDrop(s, pat, q, 0, ignoreCase);
    ReplaceAtHead(rest, pat, rep, ignoreCase);
    var tail := rest[|pat|..];
    assert tail == s[q + |pat|..];
    forall r: nat
      ensures !OccursAt(tail, pat, r, ignoreCase)
    {
      OccursAtDrop(s, pat, q + |pat|, r, ignoreCase);
    }
    ReplaceAbsent(tail, pat, rep, ignoreCase);
  }

  /** A character in neither the text nor the replacement is not in the result. */
  lemma {:induction false} ReplaceKeepsOut(s: string, pat: string, rep: string, ignoreCase: bool, c: char)
    requires |pat| > 0 && c !in s && c !in rep
    ensures c !in ReplaceAll(s, pat, rep, ignoreCase)
    decreases |s|
  {
    if |s| >= |pat| {
      if SameText(s[..|pat|], pat, ignoreCase) {
        assert forall k :: 0 <= k < |s[|pat|..]| ==> s[|pat|..][k] == s[k + |pat|];
        ReplaceKeepsOut(s[|pat|..], pat, rep, ignoreCase, c);
      } else {
        assert forall k :: 0 <= k < |s[1..]| ==> s[1..][k] == s[k + 1];
        ReplaceKeepsOut(s[1..], pat, rep, ignoreCase, c);
      }
    }
  }

  /** An occurrence at the head is replaced and replacement continues after it. */
  lemma ReplaceAtHead(s: string, pat: string, rep: string, ignoreCase: bool)
    requires |pat| > 0
    requires OccursAt(s, pat, 0, ignoreCase)
    ensures ReplaceAll(s, pat, rep, ignoreCase) == rep + ReplaceAll(s[|pat|..], pat, rep, ignoreCase)
  {
    assert s[0..|pat|] == s[..|pat|];
  }

  /** One differing character rules out an occurrence. */
  lemma MismatchNoOccurrence(s: string, pat: string, i: nat, k: nat, ignoreCase: bool)
    requires k < |pat| && i + k < |s|
    requires if ignoreCase then Lower(s[i + k]) != Lower(pat[k]) else s[i + k] != pat[k]
    ensures !OccursAt(s, pat, i, ignoreCase)
  {
    if i + |pat| <= |s| {
      assert s[i..i + |pat|][k] == s[i + k];
    }
  }

  /** A leading `pat` is removed when nothing after it holds another. */
  lemma RemoveHead(pat: string, x: string, ignoreCase: bool)
    requires |pat| > 0
    requires forall q: nat :: !OccursAt(x, pat, q, ignoreCase)
    ensures ReplaceAll(pat + x, pat, "", ignoreCase) == x
  {
    var s := pat + x;
    assert s[..|pat|] == pat && s[|pat|..] == x;
    assert s[0..|pat|] == pat;
    ReplaceAtHead(s, pat, "", ignoreCase);
    ReplaceAbsent(x, pat, "", ignoreCase);
  }

  /** A character that `pat` needs but `s` lacks rules out every occurrence. */
  lemma AbsentCharNoOccurrence(s: string, pat: string, c: char, ignoreCase: bool)
    requires c in pat && c !in s
    requires !('a' <= c <= 'z') && !('A' <= c <= 'Z')
    ensures forall i: nat :: !OccursAt(s, pat, i, ignoreCase)
  {
  }

  /** `string.Join(sep, parts)`. */
  function Join(parts: seq<string>, sep: string): string {
    if |parts| == 0 then ""
    else if |parts| == 1 then parts[0]
    else parts[0] + sep + Join(parts[1..], sep)
  }

  /** Joining two non-empty lists puts exactly one separator between the halves. */
  lemma {:induction false} JoinAppend(a: seq<string>, b: seq<string>, sep: string)
    requires |a| > 0 && |b| > 0
    ensures Join(a + b, sep) == Join(a, sep) + sep + Join(b, sep)
    decreases |a|
  {
    if |a| == 1 {
      assert (a + b)[1..] == b;
    } else {
      assert (a + b)[1..] == a[1..] + b;
      JoinAppend(a[1..], b, sep);
    }
  }

  /** A character in neither the parts nor the separator is not in their join. */
  lemma {:induction false} JoinKeepsOut(parts: seq<string>, sep: string, c: char)
    requires c !in sep
    requires forall k :: 0 <= k < |parts| ==> c !in parts[k]
    ensures c !in Join(parts, sep)
    decreases |parts|
  {
    if |parts| > 1 {
      JoinKeepsOut(parts[1..], sep, c);
      assert parts[0] in parts;
    }
  }

  /**
    `string.Split(sep)`: every maximal run between separators, empty runs kept, so the result is never
    empty; joining the parts with the separator gives back the input.
   */
  function Split(s: string, sep: char): (parts: seq<string>)
    ensures |parts| >= 1
    ensures forall k :: 0 <= k < |parts| ==> sep !in parts[k]
    ensures Join(parts, [sep]) == s
    decreases |s|
  {
    if |s| == 0 then [""]
    else
      var rest := Split(s[1..], sep);
      if s[0] == sep then
        assert s == [sep] + s[1..];
        [""] + rest
      else
        var parts := [[s[0]] + rest[0]] + rest[1..];
        assert parts[1..] == rest[1..];
        assert s == [s[0]] + s[1..];
        parts
  }

  /** Text without the separator is a single part. */
  lemma {:induction false} SplitNoSeparator(a: string, sep: char)
    requires sep !in a
    ensures Split(a, sep) == [a]
    decreases |a|
  {
    if |a| > 0 {
      assert a[0] in a;
      assert a[1..] == a[1..];
      SplitNoSeparator(a[1..], sep);
      assert [a[0]] + a[1..] == a;
    }
  }

  /** A separator after separator-free text cuts exactly there. */
  lemma {:induction false} SplitAtFirst(a: string, b: string, sep: char)
    requires sep !in a
    ensures Split(a + [sep] + b, sep) == [a] + Split(b, sep)
    decreases |a|
  {
    if |a| == 0 {
      assert a + [sep] + b == [sep] + b;
      assert ([sep] + b)[1..] == b;
    } else {
      var s := a + [sep] + b;
      assert s[1..] == a[1..] + [sep] + b;
      SplitAtFirst(a[1..], b, sep);
      assert [a[0]] + a[1..] == a;
    }
  }

  /** Split undoes Join when no part contains the separator. */
  lemma {:induction false} SplitJoin(parts: seq<string>, sep: char)
    requires |parts| >= 1
    requires forall k :: 0 <= k < |parts| ==> sep !in parts[k]
    ensures Split(Join(parts, [sep]), sep) == parts
    decreases |parts|
  {
    if |parts| == 1 {
      SplitNoSeparator(parts[0], sep);
    } else {
      SplitJoin(parts[1..], sep);
      SplitAtFirst(parts[0], Join(parts[1..], [sep]), sep);
      assert parts == [parts[0]] + parts[1..];
    }
  }

  /** The character of a decimal digit. */
  function DigitChar(d: nat): (c: char)
    requires d < 10
    ensures '0' <= c <= '9' && c as int - '0' as int == d
  {
    (d + '0' as int) as char
  }

  /** `int.ToString()` for a non-negative value: its decimal digits, no leading zero. */
  function NatToString(n: nat): (s: string)
    ensures |s| >= 1
    ensures forall k :: 0 <= k < |s| ==> '0' <= s[k] <= '9'
    decreases n
  {
    if n < 10 then [DigitChar(n)] else NatToString(n / 10) + [DigitChar(n % 10)]
  }

  /** The value of a string of decimal digits. */
  function ParseNat(s: string): nat
    requires forall k :: 0 <= k < |s| ==> '0' <= s[k] <= '9'
    decreases |s|
  {
    if |s| == 0 then 0 else ParseNat(s[..|s| - 1]) * 10 + (s[|s| - 1] as int - '0' as int)
  }

  /** Reading back a rendered number gives the number. */
  lemma {:induction false} ParseNatToString(n: nat)
    ensures ParseNat(NatToString(n)) == n
    decreases n
  {
    if n >= 10 {
      var s := NatToString(n);
      assert s[..|s| - 1] == NatToString(n / 10);
      ParseNatToString(n / 10);
    }
  }

  /** Different numbers render differently. */
  lemma NatToStringInjective(a: nat, b: nat)
    requires NatToString(a) == NatToString(b)
    ensures a == b
  {
    ParseNatToString(a);
    ParseNatToString(b);
  }

  /** Three separator-free parts joined by a separator. */
  function Join3(a: string, b: string, c: string, sep: char): string {
    a + ([sep] + (b + ([sep] + c)))
  }

  /** The only separators of `Join3` are the two it puts in. */
  lemma Join3Separators(a: string, b: string, c: string, sep: char)
    requires sep !in a && sep !in b && sep !in c
    ensures var s := Join3(a, b, c, sep);
      forall j :: 0 <= j < |s| && s[j] == sep ==> j == |a| || j == |a| + 1 + |b|
  {
  }

  /** Splitting `Join3` gives back its three parts. */
  lemma SplitJoin3(a: string, b: string, c: string, sep: char)
    requires sep !in a && sep !in b && sep !in c
    ensures Split(Join3(a, b, c, sep), sep) == [a, b, c]
  {
    SplitNoSeparator(c, sep);
    SplitAtFirst(b, c, sep);
    assert b + [sep] + c == b + ([sep] + c);
    SplitAtFirst(a, b + ([sep] + c), sep);
    assert a + [sep] + (b + ([sep] + c)) == Join3(a, b, c, sep);
  }
}

=== FILE: url_patterns.dfy ===
/**
  The two link regexes of the bot, matched by hand.

  Both have the shape `https?:\/\/(www.)?(HOST|...)LEAD[FIRST]+MIDDLE[LAST]+` and are compiled with
  `RegexOptions.IgnoreCase`. An unescaped `.` is the regex wildcard (any character but a line feed);
  inside a character class it is a literal dot.

  `MatchAt` decides each optional part and alternative by the characters in front of it and takes the
  longest runs. `Derives` is the regex's language written out with every choice explicit, and the lemmas
  show that, for a well-formed pattern, `MatchAt` finds a match exactly when one exists, that its choices
  are the only possible ones, and that its end is the furthest possible. The only freedom left is the
  length of the final run, where the greedy `+` of the .NET engine takes the longest; so `MatchAt` is the
  backtracking engine's match at that position, and `Scan` repeats it leftmost-first without overlap, as
  `Regex.Matches` does.
 */
module UrlPatterns {
  import opened Wrappers
  import opened Strings

  /** A pattern character against a text character: `.` is the wildcard, anything else matches itself ignoring case. */
  predicate AtomMatches(p: char, c: char) {
    if p == '.' then c != '\n' else Lower(c) == Lower(p)
  }

  /** The pattern literal `lit` matches `t` at `i`. */
  predicate TokAt(t: string, i: nat, lit: string) {
    i + |lit| <= |t| && forall k :: 0 <= k < |lit| ==> AtomMatches(lit[k], t[i + k])
  }

  /** A character class such as `[a-z0-9_]`; under IgnoreCase its letter range takes both cases. */
  datatype CharClass = CharClass(letters: bool, digits: bool, extra: string)

  predicate InClass(k: CharClass, c: char) {
    || (k.letters && 'a' <= Lower(c) <= 'z')
    || (k.digits && '0' <= c <= '9')
    || c in k.extra
  }

  /** Every character of `t[i..j]` is in the class. */
  predicate AllIn(t: string, i: nat, j: nat, k: CharClass)
    requires i <= j <= |t|
  {
    forall m :: i <= m < j ==> InClass(k, t[m])
  }

  /** `https?:\/\/(www.)?(hosts[0]|hosts[1]|...)` + `lead` + `[first]+` + `middle` + `[last]+`. */
  datatype UrlPattern = UrlPattern(hosts: seq<string>, lead: string, first: CharClass, middle: string, last: CharClass)

  /** `https?:\/\/(www.)?(twitter.com|t.co)\/[a-z0-9_]+\/status\/[0-9]+` */
  const Twitter := UrlPattern(["twitter.com", "t.co"], "/", CharClass(true, true, "_"), "/status/", CharClass(false, true, ""))

  /** `https?:\/\/(www.)?(bsky.app)\/profile\/[a-z0-9_.]+\/post\/[a-z0-9]+` */
  const Bluesky := UrlPattern(["bsky.app"], "/profile/", CharClass(true, true, "_."), "/post/", CharClass(true, true, ""))

  /** The end of the longest run of class characters starting at `i`. */
  function RunEnd(t: string, i: nat, k: CharClass): (j: nat)
    requires i <= |t|
    ensures i <= j <= |t| && AllIn(t, i, j, k)
    ensures j == |t| || !InClass(k, t[j])
    decreases |t| - i
  {
    if i < |t| && InClass(k, t[i]) then RunEnd(t, i + 1, k) else i
  }

  /** The first alternative, from index `from` on, that matches at `i`. */
  function FirstHost(t: string, i: nat, hosts: seq<string>, from: nat): (r: Option<nat>)
    requires from <= |hosts|
    ensures r.Some? ==> from <= r.value < |hosts| && TokAt(t, i, hosts[r.value])
    ensures r.None? ==> forall h :: from <= h < |hosts| ==> !TokAt(t, i, hosts[h])
    decreases |hosts| - from
  {
    if from == |hosts| then None
    else if TokAt(t, i, hosts[from]) then Some(from)
    else FirstHost(t, i, hosts, from + 1)
  }

  /** The choices of one match: `s` present, `www.` present, which host, and where the first run ends. */
  datatype Parse = Parse(secure: bool, www: bool, host: nat, firstEnd: nat)

  datatype Match = Match(parse: Parse, end: nat)

  /** Length of `http://` or `https://`. */
  function SchemeLength(secure: bool): nat {
    if secure then 8 else 7
  }

  /** Where the host starts for the given choices. */
  function HostStart(i: nat, c: Parse): nat {
    i + SchemeLength(c.secure) + (if c.www then 4 else 0)
  }

  /** The regex's language: `t[i..j]` matches the pattern through the choices `c`. */
  ghost predicate Derives(p: UrlPattern, t: string, i: nat, j: nat, c: Parse) {
    var b := HostStart(i, c);
    && TokAt(t, i, "http")
    && TokAt(t, i + 4, if c.secure then "s://" else "://")
    && (c.www ==> TokAt(t, i + SchemeLength(c.secure), "www."))
    && c.host < |p.hosts|
    && TokAt(t, b, p.hosts[c.host])
    && AfterHost(p, t, b + |p.hosts[c.host]|, c.firstEnd, j)
  }

  /** The part after the host: `lead` at `e`, the first run up to `f`, `middle`, and the last run up to `j`. */
  predicate AfterHost(p: UrlPattern, t: string, e: nat, f: nat, j: nat) {
    && TokAt(t, e, p.lead)
    && e + |p.lead| < f <= |t|
    && AllIn(t, e + |p.lead|, f, p.first)
    && TokAt(t, f, p.middle)
    && f + |p.middle| < j <= |t|
    && AllIn(t, f + |p.middle|, j, p.last)
  }

  /** The tail `[first]+ middle [last]+` from `l`: where the first run ends and where the match ends. */
  function RunsAt(p: UrlPattern, t: string, l: nat): (r: Option<(nat, nat)>)
    requires l <= |t|
    ensures r.Some? ==> l < r.value.0 && r.value.0 + |p.middle| < r.value.1 <= |t|
  {
    var f := RunEnd(t, l, p.first);
    if f == l || !TokAt(t, f, p.middle) then None
    else
      var e := RunEnd(t, f + |p.middle|, p.last);
      if e == f + |p.middle| then None else Some((f, e))
  }

  /** The match the engine finds at `i`, if any. */
  function MatchAt(p: UrlPattern, t: string, i: nat): (r: Option<Match>)
    ensures r.Some? ==> i < r.value.end <= |t|
  {
    if !TokAt(t, i, "http") then None
    else
      var secure := TokAt(t, i + 4, "s://");
      if !secure && !TokAt(t, i + 4, "://") then None
      else
        var a := i + SchemeLength(secure);
        var www := TokAt(t, a, "www.");
        MatchFromHost(p, t, secure, www, a + (if www then 4 else 0))
  }

  /** The rest of `MatchAt`, from where the host should start. */
  function MatchFromHost(p: UrlPattern, t: string, secure: bool, www: bool, b: nat): (r: Option<Match>)
    ensures r.Some? ==> b < r.value.end <= |t|
  {
    match FirstHost(t, b, p.hosts, 0)
    case None => None
    case Some(h) =>
      if !TokAt(t, b + |p.hosts[h]|, p.lead) then None
      else
        match RunsAt(p, t, b + |p.hosts[h]| + |p.lead|)
        case None => None
        case Some((f, e)) => Some(Match(Parse(secure, www, h, f), e))
  }

  /** Two alternatives that differ, ignoring case, at a non-wildcard position `q`. */
  predicate HostsClashAt(h1: string, h2: string, q: nat) {
    q < |h1| && q < |h2| && h1[q] != '.' && h2[q] != '.' && Lower(h1[q]) != Lower(h2[q])
  }

  /**
    The conditions under which every choice is decided by the next character: no host can start like
    `www`, no two hosts match at the same place, and the first run cannot swallow the `/` after it.
   */
  ghost predicate WellFormed(p: UrlPattern) {
    && |p.hosts| > 0
    && (forall h :: 0 <= h < |p.hosts| ==> |p.hosts[h]| > 0 && p.hosts[h][0] != '.' && Lower(p.hosts[h][0]) != 'w')
    && (forall x, y :: 0 <= x < y < |p.hosts| ==> exists q :: HostsClashAt(p.hosts[x], p.hosts[y], q))
    && |p.middle| > 0 && p.middle[0] == '/' && '/' !in p.first.extra
  }

  lemma TwitterWellFormed()
    ensures WellFormed(Twitter)
  {
    assert HostsClashAt(Twitter.hosts[0], Twitter.hosts[1], 2);
  }

  lemma BlueskyWellFormed()
    ensures WellFormed(Bluesky)
  {
  }

  /** A maximal run is the one `RunEnd` finds. */
  lemma {:induction false} RunEndExact(t: string, i: nat, j: nat, k: CharClass)
    requires i <= j <= |t| && AllIn(t, i, j, k)
    requires j == |t| || !InClass(k, t[j])
    ensures RunEnd(t, i, k) == j
    decreases j - i
  {
    if i < j {
      RunEndExact(t, i + 1, j, k);
    }
  }

  /** What `MatchAt` returns is a derivation of the pattern. */
  lemma MatchAtSound(p: UrlPattern, t: string, i: nat)
    requires MatchAt(p, t, i).Some?
    ensures Derives(p, t, i, MatchAt(p, t, i).value.end, MatchAt(p, t, i).value.parse)
  {
  }

  /** `https://` and `http://` cannot both match at the same place. */
  lemma SchemeDecided(t: string, i: nat, s1: bool, s2: bool)
    requires TokAt(t, i + 4, if s1 then "s://" else "://")
    requires TokAt(t, i + 4, if s2 then "s://" else "://")
    ensures s1 == s2
  {
    assert AtomMatches((if s1 then "s://" else "://")[0], t[i + 4]);
    assert AtomMatches((if s2 then "s://" else "://")[0], t[i + 4]);
  }

  /** In a well-formed pattern no host matches where `www.` does. */
  lemma WwwDecided(p: UrlPattern, t: string, a: nat, h: nat)
    requires WellFormed(p) && h < |p.hosts|
    requires TokAt(t, a, p.hosts[h])
    ensures !TokAt(t, a, "www.")
  {
    assert AtomMatches(p.hosts[h][0], t[a]);
    assert TokAt(t, a, "www.") ==> AtomMatches("www."[0], t[a]);
  }

  /** In a well-formed pattern at most one host matches at a place. */
  lemma HostDecided(p: UrlPattern, t: string, b: nat, h1: nat, h2: nat)
    requires WellFormed(p) && h1 < |p.hosts| && h2 < |p.hosts|
    requires TokAt(t, b, p.hosts[h1]) && TokAt(t, b, p.hosts[h2])
    ensures h1 == h2
  {
  }

  /** The first run of a well-formed pattern ends at the first character outside its class. */
  lemma FirstRunDecided(p: UrlPattern, t: string, l: nat, f: nat)
    requires WellFormed(p)
    requires l <= f <= |t| && AllIn(t, l, f, p.first) && TokAt(t, f, p.middle)
    ensures RunEnd(t, l, p.first) == f
  {
    assert AtomMatches(p.middle[0], t[f]);
    assert t[f] == '/';
    RunEndExact(t, l, f, p.first);
  }

  /** Two derivations agree on `www.`. */
  lemma WwwAgrees(p: UrlPattern, t: string, i: nat, j1: nat, c1: Parse, j2: nat, c2: Parse)
    requires WellFormed(p)
    requires Derives(p, t, i, j1, c1) && Derives(p, t, i, j2, c2)
    requires c1.secure == c2.secure
    ensures c1.www == c2.www
  {
    var a := i + SchemeLength(c1.secure);
    if c1.www && !c2.www {
      WwwDecided(p, t, a, c2.host);
    } else if !c1.www && c2.www {
      WwwDecided(p, t, a, c1.host);
    }
  }

  /** Two derivations agree on the host, and so on where the first run starts. */
  lemma HostAgrees(p: UrlPattern, t: string, i: nat, j1: nat, c1: Parse, j2: nat, c2: Parse)
    requires WellFormed(p)
    requires Derives(p, t, i, j1, c1) && Derives(p, t, i, j2, c2)
    requires c1.secure == c2.secure && c1.www == c2.www
    ensures c1.host == c2.host
  {
    HostDecided(p, t, HostStart(i, c1), c1.host, c2.host);
  }

  /** Two derivations agree on where the first run ends. */
  lemma FirstRunAgrees(p: UrlPattern, t: string, i: nat, j1: nat, c1: Parse, j2: nat, c2: Parse)
    requires WellFormed(p)
    requires Derives(p, t, i, j1, c1) && Derives(p, t, i, j2, c2)
    requires c1.secure == c2.secure && c1.www == c2.www && c1.host == c2.host
    ensures c1.firstEnd == c2.firstEnd
  {
    var l := HostStart(i, c1) + |p.hosts[c1.host]| + |p.lead|;
    FirstRunDecided(p, t, l, c1.firstEnd);
    FirstRunDecided(p, t, l, c2.firstEnd);
  }

  /** A well-formed pattern derives `t[i..j]` through at most one set of choices, whatever `j`. */
  lemma DerivationUnique(p: UrlPattern, t: string, i: nat, j1: nat, c1: Parse, j2: nat, c2: Parse)
    requires WellFormed(p)
    requires Derives(p, t, i, j1, c1) && Derives(p, t, i, j2, c2)
    ensures c1 == c2
  {
    SchemeDecided(t, i, c1.secure, c2.secure);
    WwwAgrees(p, t, i, j1, c1, j2, c2);
    HostAgrees(p, t, i, j1, c1, j2, c2);
    FirstRunAgrees(p, t, i, j1, c1, j2, c2);
  }

  /** When the tail can be read up to `j` with its first run ending at `f`, `RunsAt` reads it so, to `j` or further. */
  lemma RunsComplete(p: UrlPattern, t: string, l: nat, f: nat, j: nat)
    requires WellFormed(p)
    requires l < f <= |t| && AllIn(t, l, f, p.first) && TokAt(t, f, p.middle)
    requires f + |p.middle| < j <= |t| && AllIn(t, f + |p.middle|, j, p.last)
    ensures RunsAt(p, t, l).Some? && RunsAt(p, t, l).value.0 == f && j <= RunsAt(p, t, l).value.1
  {
    FirstRunDecided(p, t, l, f);
    var e := RunEnd(t, f + |p.middle|, p.last);
  }

  /** The scheme and `www.` steps of `MatchAt` at `i` come out as the choices `c` say. */
  predicate SchemeAgrees(t: string, i: nat, c: Parse) {
    && TokAt(t, i, "http") && TokAt(t, i + 4, "s://") == c.secure && (c.secure || TokAt(t, i + 4, "://"))
    && TokAt(t, i + SchemeLength(c.secure), "www.") == c.www
  }

  /** The scheme and `www.` choices of a derivation are the ones `MatchAt` makes, and so is the host. */
  lemma PrefixChoicesComplete(p: UrlPattern, t: string, i: nat, j: nat, c: Parse)
    requires WellFormed(p)
    requires Derives(p, t, i, j, c)
    ensures SchemeAgrees(t, i, c)
    ensures FirstHost(t, HostStart(i, c), p.hosts, 0) == Some(c.host)
  {
    SchemeDecided(t, i, TokAt(t, i + 4, "s://"), c.secure);
    if !c.www {
      WwwDecided(p, t, i + SchemeLength(c.secure), c.host);
    }
    var h := FirstHost(t, HostStart(i, c), p.hosts, 0);
    HostDecided(p, t, HostStart(i, c), h.value, c.host);
  }

  /** Once the scheme and `www.` steps agree with `c`, `MatchAt` goes on from where `c` puts the host. */
  lemma MatchAtSteps(p: UrlPattern, t: string, i: nat, c: Parse)
    requires SchemeAgrees(t, i, c)
    ensures MatchAt(p, t, i) == MatchFromHost(p, t, c.secure, c.www, HostStart(i, c))
  {
  }

  /** `MatchFromHost` given the host found and the runs after it. */
  lemma MatchFromHostSteps(p: UrlPattern, t: string, b: nat, l: nat, c: Parse)
    requires FirstHost(t, b, p.hosts, 0) == Some(c.host)
    requires TokAt(t, b + |p.hosts[c.host]|, p.lead)
    requires l == b + |p.hosts[c.host]| + |p.lead|
    requires RunsAt(p, t, l).Some? && RunsAt(p, t, l).value.0 == c.firstEnd
    ensures MatchFromHost(p, t, c.secure, c.www, b) == Some(Match(c, RunsAt(p, t, l).value.1))
  {
  }

  /** The tail after a derivation's host is read by `RunsAt` from `l`, past the lead, with the same first run, to its end or further. */
  lemma TailComplete(p: UrlPattern, t: string, e: nat, l: nat, f: nat, j: nat)
    requires WellFormed(p)
    requires AfterHost(p, t, e, f, j)
    requires l == e + |p.lead|
    ensures TokAt(t, e, p.lead)
    ensures RunsAt(p, t, l).Some? && RunsAt(p, t, l).value.0 == f
    ensures j <= RunsAt(p, t, l).value.1
  {
    RunsComplete(p, t, l, f, j);
  }

  /** Where the runs after the host start, for the choices `c`. */
  function TailStart(p: UrlPattern, i: nat, c: Parse): nat
    requires c.host < |p.hosts|
  {
    HostStart(i, c) + |p.hosts[c.host]| + |p.lead|
  }

  /** Every step `MatchAt` takes at `i` comes out as the choices `c` say, and the last run reaches `j`. */
  predicate StepsAgree(p: UrlPattern, t: string, i: nat, c: Parse, j: nat) {
    && SchemeAgrees(t, i, c)
    && FirstHost(t, HostStart(i, c), p.hosts, 0) == Some(c.host)
    && TokAt(t, HostStart(i, c) + |p.hosts[c.host]|, p.lead)
    && RunsAt(p, t, TailStart(p, i, c)).Some?
    && RunsAt(p, t, TailStart(p, i, c)).value.0 == c.firstEnd
    && j <= RunsAt(p, t, TailStart(p, i, c)).value.1
  }

  /** When every step agrees with `c`, `MatchAt` finds the match `c` describes, reaching `j` or further. */
  lemma MatchAtAgrees(p: UrlPattern, t: string, i: nat, c: Parse, j: nat)
    requires StepsAgree(p, t, i, c, j)
    ensures MatchAt(p, t, i).Some? && MatchAt(p, t, i).value.parse == c && j <= MatchAt(p, t, i).value.end
  {
    MatchFromHostSteps(p, t, HostStart(i, c), TailStart(p, i, c), c);
    MatchAtSteps(p, t, i, c);
  }

  /** A derivation fixes every step of `MatchAt`, and its runs end no earlier than the derivation. */
  lemma StepsOfDerivation(p: UrlPattern, t: string, i: nat, j: nat, c: Parse)
    requires WellFormed(p)
    requires Derives(p, t, i, j, c)
    ensures StepsAgree(p, t, i, c, j)
  {
    PrefixChoicesComplete(p, t, i, j, c);
    TailOfDerivation(p, t, i, j, c);
  }

  /** The runs after a derivation's host are read by `RunsAt` with the derivation's first run, to its end or further. */
  lemma TailOfDerivation(p: UrlPattern, t: string, i: nat, j: nat, c: Parse)
    requires WellFormed(p)
    requires Derives(p, t, i, j, c)
    ensures TokAt(t, HostStart(i, c) + |p.hosts[c.host]|, p.lead)
    ensures RunsAt(p, t, TailStart(p, i, c)).Some? && RunsAt(p, t, TailStart(p, i, c)).value.0 == c.firstEnd
    ensures j <= RunsAt(p, t, TailStart(p, i, c)).value.1
  {
    TailComplete(p, t, HostStart(i, c) + |p.hosts[c.host]|, TailStart(p, i, c), c.firstEnd, j);
  }

  /** Whenever the pattern derives `t[i..j]`, `MatchAt` succeeds with the same choices and ends no earlier. */
  lemma MatchAtComplete(p: UrlPattern, t: string, i: nat, j: nat, c: Parse)
    requires WellFormed(p)
    requires Derives(p, t, i, j, c)
    ensures MatchAt(p, t, i).Some?
    ensures MatchAt(p, t, i).value.parse == c
    ensures j <= MatchAt(p, t, i).value.end
  {
    StepsOfDerivation(p, t, i, j, c);
    MatchAtAgrees(p, t, i, c, j);
  }

  /** A match found by the scan. */
  datatype Span = Span(start: nat, end: nat)

  /** Where the match starting at each position ends, for a text of length `n`. */
  ghost predicate PositionMatcher(m: nat -> Option<nat>, n: nat) {
    forall q: nat :: m(q).Some? ==> q < m(q).value <= n
  }

  /** No match starts in `[lo, hi)`. */
  ghost predicate NoMatchIn(m: nat -> Option<nat>, lo: nat, hi: nat) {
    forall q: nat :: lo <= q < hi ==> m(q).None?
  }

  /**
    What `Regex.Matches` returns from position `i`: nothing if no match starts at or after `i`;
    otherwise the leftmost match, followed by the scan from where it ends.
   */
  ghost predicate LeftmostScan(m: nat -> Option<nat>, n: nat, i: nat, spans: seq<Span>)
    decreases |spans|
  {
    if |spans| == 0 then NoMatchIn(m, i, n)
    else
      && i <= spans[0].start
      && NoMatchIn(m, i, spans[0].start)
      && m(spans[0].start) == Some(spans[0].end)
      && LeftmostScan(m, n, spans[0].end, spans[1..])
  }

  /** The scan of `Regex.Matches` from position `i` over a position matcher `m`. */
  function Scan(m: nat -> Option<nat>, n: nat, i: nat): (spans: seq<Span>)
    requires i <= n && PositionMatcher(m, n)
    ensures LeftmostScan(m, n, i, spans)
    decreases n - i
  {
    if i == n then []
    else
      match m(i)
      case Some(e) =>
        var rest := Scan(m, n, e);
        assert ([Span(i, e)] + rest)[1..] == rest;
        [Span(i, e)] + rest
      case None => Scan(m, n, i + 1)
  }

  /** Every span of a scan is a match, and each starts at or after the end of the one before. */
  lemma {:induction false} ScanSpansAreMatches(m: nat -> Option<nat>, n: nat, i: nat, spans: seq<Span>)
    requires PositionMatcher(m, n)
    requires LeftmostScan(m, n, i, spans)
    ensures forall k :: 0 <= k < |spans| ==> i <= spans[k].start && m(spans[k].start) == Some(spans[k].end)
    ensures forall k :: 0 < k < |spans| ==> spans[k - 1].end <= spans[k].start
    decreases |spans|
  {
    if |spans| > 0 {
      ScanSpansAreMatches(m, n, spans[0].end, spans[1..]);
      assert forall k :: 0 < k < |spans| ==> spans[k] == spans[1..][k - 1];
    }
  }

  /** The end of the match `MatchAt` finds at each position of `t`. */
  function EndAt(p: UrlPattern, t: string): (m: nat -> Option<nat>)
    ensures PositionMatcher(m, |t|)
  {
    q => if MatchAt(p, t, q).Some? then Some(MatchAt(p, t, q).value.end) else None
  }

  /** The spans of `Regex.Matches(t)`. */
  function MatchSpans(p: UrlPattern, t: string): (spans: seq<Span>)
    ensures forall k :: 0 <= k < |spans| ==> MatchAt(p, t, spans[k].start).Some? && MatchAt(p, t, spans[k].start).value.end == spans[k].end
    ensures forall k :: 0 < k < |spans| ==> spans[k - 1].end <= spans[k].start
  {
    var spans := Scan(EndAt(p, t), |t|, 0);
    ScanSpansAreMatches(EndAt(p, t), |t|, 0, spans);
    spans
  }

  /** The matched texts, in order. */
  function Matches(p: UrlPattern, t: string): (r: seq<string>)
    ensures |r| == |MatchSpans(p, t)|
    ensures forall k :: 0 <= k < |r| ==> r[k] == t[MatchSpans(p, t)[k].start..MatchSpans(p, t)[k].end]
  {
    var spans := MatchSpans(p, t);
    seq(|spans|, k requires 0 <= k < |spans| => t[spans[k].start..spans[k].end])
  }

  /** `Regex.IsMatch`: the pattern matches somewhere in `t`. */
  predicate IsMatch(p: UrlPattern, t: string) {
    exists q :: 0 <= q < |t| && MatchAt(p, t, q).Some?
  }

  /** `IsMatch` holds exactly when `Matches` finds something. */
  lemma IsMatchIffMatches(p: UrlPattern, t: string)
    ensures IsMatch(p, t) <==> |Matches(p, t)| > 0
  {
    var spans := MatchSpans(p, t);
    if |spans| > 0 {
      assert EndAt(p, t)(spans[0].start).Some?;
    } else {
      forall q | 0 <= q < |t|
        ensures MatchAt(p, t, q).None?
      {
        assert EndAt(p, t)(q).None?;
      }
    }
  }

  /** No part of the pattern can match a line feed. */
  ghost predicate SingleLine(p: UrlPattern) {
    && '\n' !in p.lead && '\n' !in p.middle && '\n' !in p.first.extra && '\n' !in p.last.extra
    && forall h :: 0 <= h < |p.hosts| ==> '\n' !in p.hosts[h]
  }

  /** A literal without a line feed matches only text without one. */
  lemma TokNoLineFeed(t: string, i: nat, lit: string)
    requires TokAt(t, i, lit) && '\n' !in lit
    ensures forall k :: i <= k < i + |lit| ==> t[k] != '\n'
  {
    forall k | i <= k < i + |lit|
      ensures t[k] != '\n'
    {
      assert AtomMatches(lit[k - i], t[k]);
    }
  }

  /** A derived text has no line break. */
  lemma DerivedIsSingleLine(p: UrlPattern, t: string, i: nat, j: nat, c: Parse)
    requires SingleLine(p) && Derives(p, t, i, j, c)
    ensures forall k :: i <= k < j ==> t[k] != '\n'
  {
    var b := HostStart(i, c);
    var l := b + |p.hosts[c.host]| + |p.lead|;
    TokNoLineFeed(t, i, "http");
    TokNoLineFeed(t, i + 4, if c.secure then "s://" else "://");
    if c.www {
      TokNoLineFeed(t, i + SchemeLength(c.secure), "www.");
    }
    TokNoLineFeed(t, b, p.hosts[c.host]);
    TokNoLineFeed(t, b + |p.hosts[c.host]|, p.lead);
    TokNoLineFeed(t, c.firstEnd, p.middle);
    forall k | l <= k < c.firstEnd
      ensures t[k] != '\n'
    {
      assert InClass(p.first, t[k]);
    }
    forall k | c.firstEnd + |p.middle| <= k < j
      ensures t[k] != '\n'
    {
      assert InClass(p.last, t[k]);
    }
  }

  /** A match never spans a line break. */
  lemma MatchIsSingleLine(p: UrlPattern, t: string, i: nat)
    requires SingleLine(p) && MatchAt(p, t, i).Some?
    ensures forall k :: i <= k < MatchAt(p, t, i).value.end ==> t[k] != '\n'
  {
    MatchAtSound(p, t, i);
    DerivedIsSingleLine(p, t, i, MatchAt(p, t, i).value.end, MatchAt(p, t, i).value.parse);
  }

  /** No matched text contains a line feed. */
  lemma MatchesAreSingleLine(p: UrlPattern, t: string)
    requires SingleLine(p)
    ensures forall k :: 0 <= k < |Matches(p, t)| ==> '\n' !in Matches(p, t)[k]
  {
    var spans := MatchSpans(p, t);
    forall k | 0 <= k < |spans|
      ensures '\n' !in Matches(p, t)[k]
    {
      MatchIsSingleLine(p, t, spans[k].start);
    }
  }

  lemma TwitterSingleLine()
    ensures SingleLine(Twitter)
  {
  }

  lemma BlueskySingleLine()
    ensures SingleLine(Bluesky)
  {
  }

  /** A text the pattern derives from end to end is scanned as one span. */
  lemma WholeTextSpans(p: UrlPattern, t: string, c: Parse)
    requires WellFormed(p) && Derives(p, t, 0, |t|, c)
    ensures MatchSpans(p, t) == [Span(0, |t|)]
  {
    MatchAtComplete(p, t, 0, |t|, c);
    var m := EndAt(p, t);
    assert m(0) == Some(|t|);
    assert Scan(m, |t|, |t|) == [];
  }

  /** A text the pattern derives from end to end is its one and only match. */
  lemma WholeTextMatch(p: UrlPattern, t: string, c: Parse)
    requires WellFormed(p) && Derives(p, t, 0, |t|, c)
    ensures Matches(p, t) == [t]
  {
    WholeTextSpans(p, t, c);
    assert t[0..|t|] == t;
  }

  /** A literal matched in `b` is matched at the same place shifted by `|a|` in `a + b`. */
  lemma TokAtShift(a: string, b: string, i: nat, lit: string)
    requires TokAt(b, i, lit)
    ensures TokAt(a + b, |a| + i, lit)
  {
    assert forall k :: 0 <= k < |lit| ==> AtomMatches(lit[k], (a + b)[|a| + i + k]);
  }

  /** A literal matched in `a` still matches in any extension of `a`. */
  lemma TokAtBefore(a: string, b: string, i: nat, lit: string)
    requires TokAt(a, i, lit)
    ensures TokAt(a + b, i, lit)
  {
    assert forall k :: 0 <= k < |lit| ==> AtomMatches(lit[k], (a + b)[i + k]);
  }

  /** A run of class characters in `b` is a run shifted by `|a|` in `a + b`. */
  lemma AllInShift(a: string, b: string, i: nat, j: nat, k: CharClass)
    requires i <= j <= |b| && AllIn(b, i, j, k)
    ensures AllIn(a + b, |a| + i, |a| + j, k)
  {
    assert forall m :: |a| + i <= m < |a| + j ==> (a + b)[m] == b[m - |a|];
  }

  /** A literal matches itself. */
  lemma TokAtSelf(lit: string)
    ensures TokAt(lit, 0, lit)
  {
    assert forall k :: 0 <= k < |lit| ==> AtomMatches(lit[k], lit[k]);
  }

  /** The part after the host, found in `t`, is found shifted by `|pre|` in `pre + t`. */
  lemma AfterHostShift(p: UrlPattern, pre: string, t: string, e: nat, f: nat, j: nat)
    requires AfterHost(p, t, e, f, j)
    ensures AfterHost(p, pre + t, |pre| + e, |pre| + f, |pre| + j)
  {
    TokAtShift(pre, t, e, p.lead);
    AllInShift(pre, t, e + |p.lead|, f, p.first);
    TokAtShift(pre, t, f, p.middle);
    AllInShift(pre, t, f + |p.middle|, j, p.last);
  }

  /** `a MIDDLE z` is a first run, the middle, and a last run. */
  lemma RunsOnwards(p: UrlPattern, a: string, z: string)
    requires |a| > 0 && AllIn(a, 0, |a|, p.first)
    requires |z| > 0 && AllIn(z, 0, |z|, p.last)
    ensures var r := a + (p.middle + z);
      && AllIn(r, 0, |a|, p.first)
      && TokAt(r, |a|, p.middle)
      && AllIn(r, |a| + |p.middle|, |r|, p.last)
  {
    var r := a + (p.middle + z);
    assert forall m :: 0 <= m < |a| ==> r[m] == a[m];
    TokAtSelf(p.middle);
    TokAtBefore(p.middle, z, 0, p.middle);
    TokAtShift(a, p.middle + z, 0, p.middle);
    AllInShift(p.middle, z, 0, |z|, p.last);
    AllInShift(a, p.middle + z, |p.middle|, |p.middle + z|, p.last);
  }

  /** `LEAD a MIDDLE z` is the part after the host. */
  lemma LeadOnwards(p: UrlPattern, a: string, z: string)
    requires |a| > 0 && AllIn(a, 0, |a|, p.first)
    requires |z| > 0 && AllIn(z, 0, |z|, p.last)
    ensures var r := p.lead + (a + (p.middle + z));
      AfterHost(p, r, 0, |p.lead| + |a|, |r|)
  {
    TokAtSelf(p.lead);
    SpelledLeadOnwards(p, p.lead, a, z);
  }

  /** The same with the lead written as `lead`, in any spelling the pattern accepts. */
  lemma SpelledLeadOnwards(p: UrlPattern, lead: string, a: string, z: string)
    requires |lead| == |p.lead| && TokAt(lead, 0, p.lead)
    requires |a| > 0 && AllIn(a, 0, |a|, p.first)
    requires |z| > 0 && AllIn(z, 0, |z|, p.last)
    ensures var r := lead + (a + (p.middle + z));
      AfterHost(p, r, 0, |lead| + |a|, |r|)
  {
    var r3 := a + (p.middle + z);
    RunsOnwards(p, a, z);
    TokAtBefore(lead, r3, 0, p.lead);
    AllInShift(lead, r3, 0, |a|, p.first);
    TokAtShift(lead, r3, |a|, p.middle);
    AllInShift(lead, r3, |a| + |p.middle|, |r3|, p.last);
  }

  /** `HOST LEAD a MIDDLE z` is the host followed by the part after it. */
  lemma HostOnwards(p: UrlPattern, h: nat, a: string, z: string)
    requires h < |p.hosts|
    requires |a| > 0 && AllIn(a, 0, |a|, p.first)
    requires |z| > 0 && AllIn(z, 0, |z|, p.last)
    ensures var u := p.hosts[h] + (p.lead + (a + (p.middle + z)));
      TokAt(u, 0, p.hosts[h]) && AfterHost(p, u, |p.hosts[h]|, |p.hosts[h]| + |p.lead| + |a|, |u|)
  {
    var r2 := p.lead + (a + (p.middle + z));
    LeadOnwards(p, a, z);
    AfterHostShift(p, p.hosts[h], r2, 0, |p.lead| + |a|, |r2|);
    TokAtSelf(p.hosts[h]);
    TokAtBefore(p.hosts[h], r2, 0, p.hosts[h]);
  }

  /** `https://` and `www.` are read as the scheme and the `www.` choice. */
  lemma PrefixesMatch()
    ensures TokAt("https://", 0, "http") && TokAt("https://", 4, "s://") && TokAt("www.", 0, "www.")
  {
    TokAtSelf("https://");
    TokAtSelf("www.");
  }

  /** The address `https://HOST LEAD a MIDDLE z`, with no `www.`. */
  function Canonical(p: UrlPattern, h: nat, a: string, z: string): string
    requires h < |p.hosts|
  {
    "https://" + (p.hosts[h] + (p.lead + (a + (p.middle + z))))
  }

  /** The canonical address is derived from end to end when its two runs are non-empty runs of their classes. */
  lemma CanonicalDerives(p: UrlPattern, h: nat, a: string, z: string)
    requires h < |p.hosts|
    requires |a| > 0 && AllIn(a, 0, |a|, p.first)
    requires |z| > 0 && AllIn(z, 0, |z|, p.last)
    ensures var t := Canonical(p, h, a, z);
      Derives(p, t, 0, |t|, Parse(true, false, h, 8 + |p.hosts[h]| + |p.lead| + |a|))
  {
    var host := p.hosts[h];
    var u := host + (p.lead + (a + (p.middle + z)));
    HostOnwards(p, h, a, z);
    AfterHostShift(p, "https://", u, |host|, |host| + |p.lead| + |a|, |u|);
    TokAtShift("https://", u, 0, host);
    PrefixesMatch();
    TokAtBefore("https://", u, 0, "http");
    TokAtBefore("https://", u, 4, "s://");
  }

  /** `https://` in any spelling the pattern accepts: its letters in either case. */
  predicate SchemeSpelling(scheme: string) {
    |scheme| == 8 && TokAt(scheme, 0, "http") && TokAt(scheme, 4, "s://")
  }

  /** The address `https://HOST LEAD a MIDDLE z` with the scheme, the host and the lead each written in a spelling of its own. */
  function Spelled(p: UrlPattern, scheme: string, host: string, lead: string, a: string, z: string): string {
    scheme + (host + (lead + (a + (p.middle + z))))
  }

  /**
    Every spelling the pattern accepts, under IgnoreCase and with `.` as the wildcard, of the scheme, the host
    alternative and the lead is derived like the pattern's own text.
   */
  lemma SpelledDerives(p: UrlPattern, h: nat, scheme: string, host: string, lead: string, a: string, z: string)
    requires SchemeSpelling(scheme)
    requires h < |p.hosts| && |host| == |p.hosts[h]| && TokAt(host, 0, p.hosts[h])
    requires |lead| == |p.lead| && TokAt(lead, 0, p.lead)
    requires |a| > 0 && AllIn(a, 0, |a|, p.first)
    requires |z| > 0 && AllIn(z, 0, |z|, p.last)
    ensures var t := Spelled(p, scheme, host, lead, a, z);
      Derives(p, t, 0, |t|, Parse(true, false, h, 8 + |host| + |lead| + |a|))
  {
    var r2 := lead + (a + (p.middle + z));
    var u := host + r2;
    SpelledLeadOnwards(p, lead, a, z);
    AfterHostShift(p, host, r2, 0, |lead| + |a|, |r2|);
    TokAtBefore(host, r2, 0, p.hosts[h]);
    AfterHostShift(p, scheme, u, |host|, |host| + |lead| + |a|, |u|);
    TokAtShift(scheme, u, 0, p.hosts[h]);
    TokAtBefore(scheme, u, 0, "http");
    TokAtBefore(scheme, u, 4, "s://");
  }

  /** The address `https://www.HOST LEAD a MIDDLE z`. */
  function WwwCanonical(p: UrlPattern, h: nat, a: string, z: string): string
    requires h < |p.hosts|
  {
    "https://" + ("www." + (p.hosts[h] + (p.lead + (a + (p.middle + z)))))
  }

  /** `www.HOST LEAD a MIDDLE z` is `www.`, the host and the part after it. */
  lemma WwwOnwards(p: UrlPattern, h: nat, a: string, z: string)
    requires h < |p.hosts|
    requires |a| > 0 && AllIn(a, 0, |a|, p.first)
    requires |z| > 0 && AllIn(z, 0, |z|, p.last)
    ensures var w := "www." + (p.hosts[h] + (p.lead + (a + (p.middle + z))));
      && TokAt(w, 0, "www.") && TokAt(w, 4, p.hosts[h])
      && AfterHost(p, w, 4 + |p.hosts[h]|, 4 + |p.hosts[h]| + |p.lead| + |a|, |w|)
  {
    var host := p.hosts[h];
    var u := host + (p.lead + (a + (p.middle + z)));
    HostOnwards(p, h, a, z);
    AfterHostShift(p, "www.", u, |host|, |host| + |p.lead| + |a|, |u|);
    TokAtShift("www.", u, 0, host);
    PrefixesMatch();
    TokAtBefore("www.", u, 0, "www.");
  }

  /** The address with `www.` is derived from end to end too, with the `www.` choice made. */
  lemma WwwCanonicalDerives(p: UrlPattern, h: nat, a: string, z: string)
    requires h < |p.hosts|
    requires |a| > 0 && AllIn(a, 0, |a|, p.first)
    requires |z| > 0 && AllIn(z, 0, |z|, p.last)
    ensures var t := WwwCanonical(p, h, a, z);
      Derives(p, t, 0, |t|, Parse(true, true, h, 12 + |p.hosts[h]| + |p.lead| + |a|))
  {
    var host := p.hosts[h];
    var w := "www." + (host + (p.lead + (a + (p.middle + z))));
    WwwOnwards(p, h, a, z);
    AfterHostShift(p, "https://", w, 4 + |host|, 4 + |host| + |p.lead| + |a|, |w|);
    TokAtShift("https://", w, 4, host);
    TokAtShift("https://", w, 0, "www.");
    PrefixesMatch();
    TokAtBefore("https://", w, 0, "http");
    TokAtBefore("https://", w, 4, "s://");
  }
}

=== FILE: view_settings.dfy ===
/**
  The `/view-settings` command: who may see a server's settings, and the text that shows them.
 */
module ViewSettings {
  import opened Wrappers
  import opened Strings
  import opened GuildConfig

  const SomethingWrongText := "Hmm, something is wrong, you aren't able to do that."
  const NotAllowedText := "You aren't allowed to do that!"
  const ErrorTitle := "Oops!"
  const ErrorText := "There was a problem reading the configuration for this server. That shouldn't happen, so maybe try again later."
  const AdministratorNote := " (Note: Administrators are not shown here)"

  /** The server member who ran the command, as far as the command looks at them. */
  datatype Member = Member(isAdministrator: bool)

  /** What the command answers with. */
  datatype Response = PlainText(text: string) | ErrorEmbed(title: string, description: string) | RegularEmbed(title: string, description: string)

  /** `GetEnabledText`. */
  function EnabledText(isEnabled: bool): (r: string)
    ensures r == "ON" <==> isEnabled
    ensures r == "OFF" <==> !isEnabled
  {
    if isEnabled then "ON" else "OFF"
  }

  /** A user mention. */
  function UserMention(id: string): string {
    "<@" + id + ">"
  }

  /** `GetAdminUserDisplayText`: the mentions of the bot managers, separated by `", "`. */
  function AdminUserDisplayText(ids: seq<string>): string {
    Join(seq(|ids|, k requires 0 <= k < |ids| => UserMention(ids[k])), ", ")
  }

  /** The display text grows one mention at a time: nothing for no managers, then one more mention after a comma. */
  lemma AdminUserDisplayTextSteps(ids: seq<string>, id: string)
    ensures AdminUserDisplayText([]) == ""
    ensures AdminUserDisplayText([id]) == UserMention(id)
    ensures |ids| > 0 ==> AdminUserDisplayText(ids + [id]) == AdminUserDisplayText(ids) + ", " + UserMention(id)
  {
    if |ids| > 0 {
      var n := ids + [id];
      var all := seq(|n|, k requires 0 <= k < |n| => UserMention(n[k]));
      var front := seq(|ids|, k requires 0 <= k < |ids| => UserMention(ids[k]));
      assert all == front + [UserMention(id)];
      JoinAppend(front, [UserMention(id)], ", ");
    }
  }

  /** The log channel as a channel mention, or `Not Set`. */
  function LogChannelText(logChannelId: Option<string>): string {
    match logChannelId
    case Some(id) => "<#" + id + ">"
    case None => "Not Set"
  }

  /** The eight lines of the settings text, in order, without their line ends. */
  function SettingsLines(c: GuildConfiguration): (lines: seq<string>)
    ensures |lines| == 8
  {
    [ "Default Replies: " + EnabledText(c.enableDefaultReplies),
      "Avatar Announcements: " + EnabledText(c.enableAvatarAnnouncements),
      "Mention User on Avatar Announcements: " + EnabledText(c.enableAvatarMentions),
      "Log Channel: " + LogChannelText(c.logChannelId),
      "Fix Tweet Reactions: " + EnabledText(c.enableFixTweetReactions),
      "Fix Instagram Reactions: " + EnabledText(c.enableFixInstagramReactions),
      "Fix Bluesky Reactions: " + EnabledText(c.enableFixBlueskyReactions),
      "Bot Managers: " + AdminUserDisplayText(c.adminUserIds) + AdministratorNote ]
  }

  /** Lines each followed by a line end. */
  function Terminated(lines: seq<string>): string
    decreases |lines|
  {
    if |lines| == 0 then "" else lines[0] + ("\n" + Terminated(lines[1..]))
  }

  /** The settings text. */
  function SettingsBody(c: GuildConfiguration): string {
    Terminated(SettingsLines(c))
  }

  /** Splitting terminated lines at line ends gives the lines back, and one empty part after the last line end. */
  lemma {:induction false} SplitTerminated(lines: seq<string>)
    requires forall k :: 0 <= k < |lines| ==> '\n' !in lines[k]
    ensures Split(Terminated(lines), '\n') == lines + [""]
    decreases |lines|
  {
    if |lines| > 0 {
      SplitTerminated(lines[1..]);
      var rest := Terminated(lines[1..]);
      assert lines[0] + ("\n" + rest) == lines[0] + ['\n'] + rest;
      SplitAtFirst(lines[0], rest, '\n');
      assert lines == [lines[0]] + lines[1..];
    }
  }

  /** A caption and a value without line ends make a line without one. */
  lemma LineOf(caption: string, value: string)
    requires '\n' !in caption && '\n' !in value
    ensures '\n' !in caption + value
  {
  }

  /** The manager mentions hold a line end only if an id does. */
  lemma AdminUserDisplayTextIsSingle(ids: seq<string>)
    requires forall k :: 0 <= k < |ids| ==> '\n' !in ids[k]
    ensures '\n' !in AdminUserDisplayText(ids)
  {
    var mentions := seq(|ids|, k requires 0 <= k < |ids| => UserMention(ids[k]));
    forall k | 0 <= k < |mentions|
      ensures '\n' !in mentions[k]
    {
      LineOf("<@", ids[k]);
      LineOf("<@" + ids[k], ">");
    }
    JoinKeepsOut(mentions, ", ", '\n');
  }

  /** The fixed texts of the first switch lines hold no line end. */
  lemma SwitchCaptionsAreSingle()
    ensures '\n' !in "Default Replies: "
    ensures '\n' !in "Avatar Announcements: "
    ensures '\n' !in "Mention User on Avatar Announcements: "
  {
  }

  /** The fixed texts of the fix switch lines hold no line end. */
  lemma FixCaptionsAreSingle()
    ensures '\n' !in "Fix Tweet Reactions: "
    ensures '\n' !in "Fix Instagram Reactions: "
    ensures '\n' !in "Fix Bluesky Reactions: "
  {
  }

  /** The other fixed texts of the settings hold no line end. */
  lemma OtherCaptionsAreSingle()
    ensures '\n' !in "Log Channel: " && '\n' !in "Bot Managers: " && '\n' !in AdministratorNote
    ensures '\n' !in "ON" && '\n' !in "OFF" && '\n' !in "Not Set" && '\n' !in "<#" && '\n' !in ">"
  {
  }

  /** No setting line breaks unless an id in the settings does. */
  lemma SettingsLinesAreSingle(c: GuildConfiguration)
    requires c.logChannelId.Some? ==> '\n' !in c.logChannelId.value
    requires forall k :: 0 <= k < |c.adminUserIds| ==> '\n' !in c.adminUserIds[k]
    ensures forall k :: 0 <= k < 8 ==> '\n' !in SettingsLines(c)[k]
  {
    SwitchCaptionsAreSingle();
    FixCaptionsAreSingle();
    OtherCaptionsAreSingle();
    if c.logChannelId.Some? {
      LineOf("<#", c.logChannelId.value);
      LineOf("<#" + c.logChannelId.value, ">");
    }
    AdminUserDisplayTextIsSingle(c.adminUserIds);
    LineOf("Bot Managers: ", AdminUserDisplayText(c.adminUserIds));
  }

  /** The settings text is exactly the eight lines, each ended by a line end. */
  lemma SettingsBodyLines(c: GuildConfiguration)
    requires c.logChannelId.Some? ==> '\n' !in c.logChannelId.value
    requires forall k :: 0 <= k < |c.adminUserIds| ==> '\n' !in c.adminUserIds[k]
    ensures Split(SettingsBody(c), '\n') == SettingsLines(c) + [""]
  {
    SettingsLinesAreSingle(c);
    SplitTerminated(SettingsLines(c));
  }

  /** Two settings with the same text agree on every switch and on the log channel. */
  lemma SettingsLinesDetermineSettings(a: GuildConfiguration, b: GuildConfiguration)
    requires SettingsLines(a) == SettingsLines(b)
    ensures a.enableDefaultReplies == b.enableDefaultReplies
    ensures a.enableAvatarAnnouncements == b.enableAvatarAnnouncements
    ensures a.enableAvatarMentions == b.enableAvatarMentions
    ensures a.logChannelId == b.logChannelId
    ensures a.enableFixTweetReactions == b.enableFixTweetReactions
    ensures a.enableFixInstagramReactions == b.enableFixInstagramReactions
    ensures a.enableFixBlueskyReactions == b.enableFixBlueskyReactions
  {
    LabelledEnabledInjective("Default Replies: ", a.enableDefaultReplies, b.enableDefaultReplies);
    LabelledEnabledInjective("Avatar Announcements: ", a.enableAvatarAnnouncements, b.enableAvatarAnnouncements);
    LabelledEnabledInjective("Mention User on Avatar Announcements: ", a.enableAvatarMentions, b.enableAvatarMentions);
    LabelledEnabledInjective("Fix Tweet Reactions: ", a.enableFixTweetReactions, b.enableFixTweetReactions);
    LabelledEnabledInjective("Fix Instagram Reactions: ", a.enableFixInstagramReactions, b.enableFixInstagramReactions);
    LabelledEnabledInjective("Fix Bluesky Reactions: ", a.enableFixBlueskyReactions, b.enableFixBlueskyReactions);
    LogChannelTextInjective(a.logChannelId, b.logChannelId);
  }

  /** A switch can be read back from its line. */
  lemma LabelledEnabledInjective(caption: string, x: bool, y: bool)
    requires caption + EnabledText(x) == caption + EnabledText(y)
    ensures x == y
  {
    assert |caption + EnabledText(x)| == |caption + EnabledText(y)|;
  }

  /** Different log channel settings render differently. */
  lemma LogChannelTextInjective(x: Option<string>, y: Option<string>)
    requires "Log Channel: " + LogChannelText(x) == "Log Channel: " + LogChannelText(y)
    ensures x == y
  {
    var p := "Log Channel: ";
    assert LogChannelText(x) == (p + LogChannelText(x))[|p|..];
    assert LogChannelText(y) == (p + LogChannelText(y))[|p|..];
    assert LogChannelText(x)[0] == (if x.Some? then '<' else 'N');
    assert LogChannelText(y)[0] == (if y.Some? then '<' else 'N');
    if x.Some? && y.Some? {
      var t := LogChannelText(x);
      assert x.value == t[2..|t| - 1];
      assert y.value == LogChannelText(y)[2..|t| - 1];
    }
  }

  /**
    `ViewSettings`: a user who is not a member gets an apology, a member who is not an administrator a
    refusal, an administrator the settings, or an error when they cannot be read.
   */
  function ViewSettingsResponse(member: Option<Member>, guildName: string, config: Option<GuildConfiguration>): (r: Response)
    ensures member.None? ==> r == PlainText(SomethingWrongText)
    ensures member.Some? && !member.value.isAdministrator ==> r == PlainText(NotAllowedText)
    ensures r.ErrorEmbed? <==> member.Some? && member.value.isAdministrator && config.None?
    ensures r.RegularEmbed? <==> member.Some? && member.value.isAdministrator && config.Some?
    ensures r.RegularEmbed? ==> r.title == "Settings for " + guildName && r.description == SettingsBody(config.value)
  {
    match member
    case None => PlainText(SomethingWrongText)
    case Some(m) =>
      if !m.isAdministrator then PlainText(NotAllowedText)
      else
        match config
        case None => ErrorEmbed(ErrorTitle, ErrorText)
        case Some(c) => RegularEmbed("Settings for " + guildName, SettingsBody(c))
  }

  /** Only an administrator's answer depends on the stored settings. */
  lemma SettingsOnlyForAdministrators(member: Option<Member>, guildName: string, x: Option<GuildConfiguration>, y: Option<GuildConfiguration>)
    requires member.None? || !member.value.isAdministrator
    ensures ViewSettingsResponse(member, guildName, x) == ViewSettingsResponse(member, guildName, y)
  {
  }
}

=== FILE: wrappers.dfy ===
/** The nullable references of the bot (`string?`, `Record?`, a failed fetch) as an explicit datatype. */
module Wrappers {

  datatype Option<+T> = None | Some(value: T) {

    /** The wrapped value, or `default` for None (C#'s `??`). */
    function GetOr(default: T): T {
      match this
      case Some(v) => v
      case None => default
    }
  }
}
